=== FILE: README.md ===
# BottomBar in Dafny

A model of `BottomBar.py`: a helper that keeps a bar of `bar_height` rows at the
bottom of a terminal, lets ordinary output scroll above it, and rewrites single rows
of the bar in place. `print`, `print_bar_line` and `print_final_line` each write one
string; `init` writes `height - 1` single line breaks and then an empty string. The
model builds each call's output as a sequence of ECMA-48 tokens. It
renders the tokens to the exact string the source writes. It runs the tokens on a
virtual terminal and proves what happens to the screen.

Modules, one per file:

- `Wrappers` (`wrappers.dfy`): `Option` and `Result`.
- `Content` (`content.dfy`): `str.count('\n')`, `str.split('\n')` and `'\n'.join`, with their round trips.
- `Ansi` (`ansi.dfy`): the tokens the class writes, which are glyphs, LF, CUU `ESC[nA`, CUD `ESC[nB`, IL `ESC[nL`, EL `ESC[2K` and CNL `ESC[E`, plus CHA `ESC[G`, which only the corrected payloads in `CursorNextLine` write. The module has their rendering with Python's decimal formatting, and a reader (`Parse`) that reads a rendered string back.
- `Terminal` (`terminal.dfy`): a screen of rows with a cursor and a `Step` per token. Each `Step` follows ECMA-48: CUU (section 8.3.22), CUD (8.3.19), IL (8.3.67), EL (8.3.41), CNL (8.3.12) and CHA (8.3.9), with moves clamped at the screen's edges, as VT100-compatible terminals do. ECMA-48 itself does not define that clamping. LF is the tty's translated newline: next row and column 0, scrolling on the last row.
- `BottomBar` (`bottombar.dfy`): the class itself.
  - The constructor.
  - The payloads of `init`, `print`, `print_bar_line` and `print_final_line`.
  - The assertions, as `Failure(AssertionError(message))` with the source's messages, and the `TypeError` Python's `print` raises for a keyword name it does not accept.
  - `LoggingBottomBarHandler.emit`.
  - A `with BottomBar(h) as bar:` block (`Session`). `__enter__` runs `init`, and `__exit__` runs `print_final_line` on every exit path.
- `Behaviour` (`behaviour.dfy`): what those payloads do to a terminal whose cursor rests at column 0 of the screen's last row, the bar's last row.
- `CursorNextLine` (`cursor_next_line.dfy`): what `ESC[E` does when the bar's last row is not the screen's last row, and the corrected payloads.

Three facts about the code that are easy to misread:

- The comments at BottomBar.py:52 and :80 say `ESC[E` moves the cursor to the beginning of the line. `ESC[E` is CURSOR NEXT LINE (section 8.3.12 of ECMA-48), which also moves down one row; see "## Findings".
- `init` writes `height - 1` line breaks (BottomBar.py:25-26), and its closing `print("", end='')` writes nothing. With `print_final_line`, a `with` block writes `height` line breaks in all (`BottomBar.EmptySessionWritesHeightNewlines`).
- `Behaviour` assumes that `init` starts with the cursor at column 0 of the screen's last row. Then `init`'s line breaks scroll the screen, and between calls the cursor rests at column 0 of the bar's last row, which is the screen's last row (BottomBar.py:25-27, 70-73; `Behaviour.InitReservesBar`, `Behaviour.PrintKeepsBar`, `Behaviour.BarLineKeepsBar`). The code does not ensure this: when `init` starts higher up nothing scrolls, the bar's last row sits above the screen's last row, and every later call leaves the cursor one row below the bar (see "## Findings").

## Model

| member | source | states |
|---|---|---|
| BottomBar.Create | BottomBar.py:13-14 | construction succeeds exactly when `bar_height > 0` and keeps that height; otherwise it fails with "bar_height must be positive" |
| BottomBar.InitPayload | BottomBar.py:23-27 | what `init` writes renders to exactly `height - 1` line breaks; the closing `print("", end='')` adds nothing |
| Behaviour.InitReservesBar | BottomBar.py:23-27 | from the resting position, `init` scrolls the screen up by `height - 1` rows and leaves `height - 1` blank rows below the row the cursor started on; the cursor ends at column 0 of the last of them, and with the row it started on they are the bar |
| BottomBar.Print | BottomBar.py:39-56 | `print` succeeds exactly when its keyword names are among `sep`, `end`, `file` and `flush` and `end` is not one of them, and then writes `PrintPayload`. An `end` keyword fails first, with "end parameter is reserved and cannot be used."; any other refused name fails with a `TypeError` naming the refused names |
| BottomBar.PrintWritesSourcePayload | BottomBar.py:40-56 | `PrintPayload`, the model of `print`, renders to the string the source builds: `k+1` line breaks for `k` in the content, `ESC[{h+k}A`, `ESC[{k+1}L`, the content, `ESC[{h}B`, `ESC[E` |
| BottomBar.PrintReadBack | BottomBar.py:40-56 | a terminal reads `print`'s string back as exactly its tokens if and only if the content is plain text: every character is a line break or printable, so no C0 control other than LF, no DEL and no C1 control. CR, BS, TAB, VT, FF or ESC in the content make the terminal act instead of show |
| Behaviour.PrintInsertsAboveBar | BottomBar.py:40-56 | from the resting position, `print` scrolls the rows above the bar up by the content's line count and puts the content's lines directly above the bar; the bar's rows and the cursor's resting place are unchanged |
| Behaviour.PrintBodyAtBottom | BottomBar.py:44-51 | everything before the final `ESC[E` leaves the new lines above the bar and the cursor on the last row, after the content's last line |
| Behaviour.PrintKeepsBar | BottomBar.py:40-56 | after `print` the cursor rests again. The bar's rows are the same, the rows above it end with the content's lines, and the older rows are the previous ones shifted up |
| Behaviour.PrintOverflowsBar | BottomBar.py:40-56 | when the content has more lines than fit above the bar, `print` overwrites the bar: a two-line `print` under a two-row bar on a three-row screen leaves the content's last line on the bar's first row |
| BottomBar.PrintBarLine | BottomBar.py:67-68 | `print_bar_line` succeeds if and only if `0 <= y < height` and the content has no line break. The row check comes first, each failure has its own message, and a success writes the bar-line payload |
| BottomBar.BarLineWritesSourcePayload | BottomBar.py:70-81 | `BarLinePayload`, the model of `print_bar_line`, renders to the string the source builds: for the last bar row, `ESC[2K`, the content and `ESC[E`; for any other row, `ESC[{k}A ESC[2K` content `ESC[{k}B ESC[E` with `k = height - y - 1 >= 1` |
| BottomBar.BarLineMovesBalanced | BottomBar.py:70-81 | the payload holds no CUU or CUD if and only if `y` is the last bar row. For any other row it opens with CUU(k) and has CUD(k) just before its final `ESC[E`, with the same `k`. It always ends with `ESC[E` |
| BottomBar.BarLineReadBack | BottomBar.py:70-81 | a terminal reads the bar-line string back as exactly its tokens if and only if the content is plain text, as for `print`; a VT or FF in the content, which would move the cursor, rules it out |
| Behaviour.BarLineBodyFrom | BottomBar.py:70-79 | with the cursor at column 0 of the bar's last row, wherever that row is, everything before `ESC[E` rewrites bar row `y` and returns to the same row |
| Behaviour.BarLineRewritesRow | BottomBar.py:58-81 | from the resting position, `print_bar_line` replaces screen row `rows - height + y` with the content, changes no other row, and the cursor rests again |
| Behaviour.BarLineKeepsBar | BottomBar.py:58-81 | read as the bar, `print_bar_line` changes its row `y` to the content and leaves its other rows unchanged |
| BottomBar.FinalPayload | BottomBar.py:83-85 | what `print_final_line` writes renders to exactly one line break |
| Behaviour.FinalLeavesBarAbove | BottomBar.py:83-85 | from rest, `print_final_line` scrolls the screen by one row: the cursor ends at column 0 of a fresh, empty last row, and the bar's rows sit unchanged directly above it |
| BottomBar.Emit | BottomBar.py:97-99 | the logging handler passes the formatted record to `print` unchanged, with no keywords, so it always succeeds with `print`'s payload |
| BottomBar.Session | BottomBar.py:16-21 | a `with` block raises exactly when one of its calls does: `__exit__` writes the final line and returns nothing, so the exception is not swallowed |
| BottomBar.RunOps | BottomBar.py:16-21 | a block's calls ran without fault if and only if every call succeeded |
| BottomBar.FailureStopsBlock | BottomBar.py:16-21 | the first failing call ends the block with its error; the output is what the calls before it wrote |
| BottomBar.SessionFramed | BottomBar.py:16-21 | a `with` block always writes `init`'s `height - 1` line breaks first and `print_final_line`'s line break last, even when a call in it fails |
| BottomBar.EmptySessionWritesHeightNewlines | BottomBar.py:16-27 | a `with` block with no calls writes `height` line breaks in all and no fault |
| Behaviour.OpKeepsBar | BottomBar.py:29-81 | one successful call that fits on the screen keeps the cursor resting and changes the bar as the caller asked |
| Behaviour.SessionKeepsBar | BottomBar.py:29-99 | any sequence of successful calls that fit keeps the cursor resting and leaves the bar showing what the `print_bar_line` calls put there, in order; prints and log records never disturb it |
| Content.Lines | BottomBar.py:40 | the content occupies `count('\n') + 1` rows, none holding a line break |
| Content.JoinLines | BottomBar.py:40 | joining the content's rows with line breaks gives the content back |
| Content.LinesJoin | BottomBar.py:40 | splitting rows joined by line breaks gives the rows back |
| Content.NoNewlineCount | BottomBar.py:68 | a string has no line break if and only if its line-break count is 0 |
| Ansi.Decimal | BottomBar.py:46-47 | the f-string decimal of a count: at least one digit, with a leading zero only for 0 |
| Ansi.DecimalRoundTrip | BottomBar.py:46-47 | reading the digits written for a count gives the count back |
| Ansi.ReadBack | BottomBar.py:46-52 | a rendered token sequence reads back as itself if and only if every token is well formed |
| Terminal.WriteLines | BottomBar.py:55 | writing joined lines from column 0 over blank rows fills those rows with the lines and leaves the cursor after the last one |
| Terminal.ScrollFeeds | BottomBar.py:45 | `k` line breaks on the last row scroll the screen up by `k` rows |
| Terminal.FeedsPastBottom | BottomBar.py:45 | `k` line breaks with only `f < k` rows below the cursor take it to column 0 of the last row and scroll the screen up by the other `k - f`, bringing in blank rows |
| CursorNextLine.BarLineDrifts | BottomBar.py:80 | as written: with the bar above the screen's last row, `print_bar_line` rewrites row `y` and leaves the cursor one row lower |
| CursorNextLine.BarLineDriftExample | BottomBar.py:70-81 | as written: a one-row bar at the top of a blank three-row screen. Writing "X" and then "Y" leaves both on screen, on rows 0 and 1 |
| CursorNextLine.BarLineLosesAnchor | BottomBar.py:80 | from an anchored bar above the last row, the source's payload ends one row lower while the corrected one stays |
| CursorNextLine.BarLineFixedFrom | BottomBar.py:70-81 | corrected (`ESC[G` in place of `ESC[E`): from any row the bar can end on, only bar row `y` changes and the cursor stays at column 0 of the same row |
| CursorNextLine.BarLineFixedKeepsAnchor | BottomBar.py:58-81 | corrected: an anchored bar stays anchored and shows row `y` replaced |
| CursorNextLine.PrintDrifts | BottomBar.py:52 | as written: with room below the bar, `print` moves the bar down by the content's lines but leaves the cursor one row below the bar's new last row |
| CursorNextLine.PrintFixedFrom | BottomBar.py:44-56 | corrected: with room below, `print` puts the content's lines where the bar began, moves the bar down by as many rows, and the cursor ends at column 0 of the bar's new last row |
| CursorNextLine.PrintFixedScrolls | BottomBar.py:40-56 | corrected, with fewer free rows below the bar than lines to print (the resting position included): the screen scrolls by the difference, the content's lines go in directly above the bar, and the bar ends on the screen's last rows, unchanged, with the cursor at column 0 of its last row |
| CursorNextLine.PrintFixedKeepsAnchor | BottomBar.py:29-56 | corrected: wherever the bar is, whenever the screen has room for the bar and the printed lines, an anchored bar stays anchored after `print`, with the same rows |
| CursorNextLine.PrintBodyEndsOnLastRow | BottomBar.py:44-51 | from the resting position, for every content, even one with more lines than the screen, everything `print` writes before its final `ESC[E` leaves the cursor on the screen's last row |
| CursorNextLine.FixedAgreesAtBottom | BottomBar.py:52 | from the resting position, the corrected payloads leave the same screen as the source's, for `print` whatever the content, so the main model keeps the source's `ESC[E` |

## Left out

- Output is modelled as the string each call writes and a virtual terminal. No real stream, flushing or terminal is involved.
- `print(content_str, **kwargs)` only looks at the keyword names. What `sep`, `file` and `flush` do in Python's own `print` is not modelled. `sep` has no effect on a single value, `flush` only flushes, and `file` would send the payload to another stream.
- BottomBar.Print: the `TypeError` carries every refused keyword name. Python's message names only one of them, and which one is not modelled.
- Exceptions are `Failure` values, and a failing call writes nothing. Running under `python -O`, which drops the `assert` statements, is not modelled.
- The terminal has no width limit and does not wrap lines. Its `Step` shows every character other than LF as a glyph, so the `Behaviour` and `CursorNextLine` lemmas describe a real terminal only for plain-text content (`Ansi.PlainText`). `BottomBar.PrintReadBack` and `BottomBar.BarLineReadBack` state that this is exactly the content whose payload a terminal reads back as its tokens. What CR, BS, TAB, VT, FF, DEL, the C1 controls or the content's own escape sequences do on a terminal is not modelled.
- `LoggingBottomBarHandler.__init__` (BottomBar.py:89-95) only stores the bar, which is `BottomBar.Emit`'s `bar` parameter. `self.format(record)` is Python's `logging` formatting; `Emit` takes the formatted string as input.
- The demo under `if __name__ == '__main__':` and `example.py` are usage examples and are not part of this model.
- Behaviour.PrintKeepsBar: holds only when the screen has room for the bar plus the printed lines. With less room the source's `print` overwrites the bar's top rows. `PrintPayload` and `Run` compute that case, and `Behaviour.PrintOverflowsBar` shows one instance, but no lemma states it in general.
- Behaviour.PrintInsertsAboveBar: the same room requirement as `Behaviour.PrintKeepsBar`, for the same reason.
- Behaviour.PrintBodyAtBottom: the same room requirement as `Behaviour.PrintKeepsBar`, for the same reason.
- Behaviour.OpKeepsBar: covers only calls that fit (`Behaviour.Fits`), so a `print` with too many lines is left out for the same reason.
- Behaviour.SessionKeepsBar: covers only blocks whose calls all fit, as `Behaviour.OpKeepsBar`.
- CursorNextLine.PrintDrifts: covers only the case with room below the bar. The partly-scrolling case is not modelled.
- CursorNextLine.PrintFixedKeepsAnchor: holds only when the screen has room for the bar plus the printed lines. With less room the corrected `print` overwrites the bar's top rows, as the source's does (`Behaviour.PrintOverflowsBar`), and no lemma states that case.

## Findings

| source | as written | input that shows it | evidently intended | confidence | as-written member | corrected member |
|---|---|---|---|---|---|---|
| BottomBar.py:80 | `print_bar_line` ends with `ESC[E` (CURSOR NEXT LINE), commented as a move to the beginning of the line | `BottomBar(1)` set up with the cursor on row 0 of a blank 3-row screen; `print_bar_line(0, "X")` then `print_bar_line(0, "Y")` leave "X" on row 0 and "Y" on row 1, with the cursor on row 2 | back to column 0 of the same row (`ESC[G`), so the next call finds the bar where it was | not executed | CursorNextLine.BarLineDrifts, CursorNextLine.BarLineDriftExample | CursorNextLine.BarLineFixedFrom, CursorNextLine.BarLineFixedKeepsAnchor |
| BottomBar.py:52 | `print` ends with the same `ESC[E` | a bar whose last row is on row `r` of a screen with at least `n + 1` rows below it; `print` of an `n`-line string leaves the cursor on row `r + n + 1`, one below the bar | the cursor at column 0 of the bar's new last row, row `r + n` | not executed | CursorNextLine.PrintDrifts | CursorNextLine.PrintFixedFrom, CursorNextLine.PrintFixedScrolls, CursorNextLine.PrintFixedKeepsAnchor |

From the resting position the screen's last row clamps CNL's move down, and the two payloads agree for every content (`CursorNextLine.FixedAgreesAtBottom`). The rest of the model therefore uses the source's payloads and proves them from that position.

=== FILE: ansi.dfy ===
/**
 * The control functions the bar writes, as ECMA-48 defines them, and their encoding
 * as characters. A payload is modelled as a sequence of tokens; `Render` is the string
 * the source builds, `Parse` is how a terminal reads that string back.
 */
module Ansi {
  import opened Wrappers

  /** The escape character, written `\033` in the source. */
  const ESC: char := '\U{1B}'

  datatype Token =
    | Glyph(c: char)   // a character shown at the cursor
    | LF               // line break '\n'
    | CUU(n: nat)      // ESC [ n A  cursor up (ECMA-48 section 8.3.22)
    | CUD(n: nat)      // ESC [ n B  cursor down (ECMA-48 section 8.3.19)
    | IL(n: nat)       // ESC [ n L  insert line (ECMA-48 section 8.3.67)
    | EL               // ESC [ 2 K  erase in line, whole line (ECMA-48 section 8.3.41)
    | CNL              // ESC [ E    cursor next line (ECMA-48 section 8.3.12)
    | CHA              // ESC [ G    cursor character absolute, column 1 (ECMA-48 section 8.3.9)

  /**
   * A character a terminal shows rather than acts on: not a C0 control (below space),
   * not DEL and not a C1 control (U+0080 to U+009F).
   */
  predicate Printable(c: char) {
    ' ' <= c && c != '\U{7F}' && !('\U{80}' <= c <= '\U{9F}')
  }

  /** Text whose characters are printable or line breaks, the only control it may hold. */
  predicate PlainText(s: string) {
    forall i :: 0 <= i < |s| ==> s[i] == '\n' || Printable(s[i])
  }

  /** Tokens whose encoding a terminal reads back as the same token. */
  predicate WellFormed(t: Token) {
    match t
    case Glyph(c) => Printable(c)
    case CUU(n) => n >= 1
    case CUD(n) => n >= 1
    case IL(n) => n >= 1
    case _ => true
  }

  predicate AllWellFormed(ts: seq<Token>) {
    forall i :: 0 <= i < |ts| ==> WellFormed(ts[i])
  }

  // ---------------------------------------------------------------- numbers

  predicate IsDigit(c: char) {
    '0' <= c <= '9'
  }

  predicate AllDigits(s: string) {
    forall i :: 0 <= i < |s| ==> IsDigit(s[i])
  }

  function DigitChar(d: nat): (c: char)
    requires d < 10
    ensures IsDigit(c)
  {
    (48 + d) as char
  }

  function DigitValue(c: char): (d: nat)
    requires IsDigit(c)
    ensures d < 10
  {
    (c as int) - 48
  }

  /** `f"{n}"`: canonical decimal, no leading zero. */
  function Decimal(n: nat): (s: string)
    ensures |s| >= 1 && AllDigits(s)
    ensures s[0] == '0' <==> n == 0
    decreases n
  {
    if n < 10 then [DigitChar(n)] else Decimal(n / 10) + [DigitChar(n % 10)]
  }

  /** The number a digit string denotes. */
  function ValueOf(s: string): nat
    requires AllDigits(s)
    decreases |s|
  {
    if |s| == 0 then 0 else 10 * ValueOf(s[..|s| - 1]) + DigitValue(s[|s| - 1])
  }

  lemma {:induction false} DecimalRoundTrip(n: nat)
    ensures ValueOf(Decimal(n)) == n
    decreases n
  {
    if n >= 10 {
      var d := Decimal(n / 10);
      DecimalRoundTrip(n / 10);
      assert (d + [DigitChar(n % 10)])[..|d|] == d;
    }
  }

  /** Number of leading digits. */
  function DigitPrefix(s: string): (k: nat)
    ensures k <= |s|
    ensures forall i :: 0 <= i < k ==> IsDigit(s[i])
    ensures k < |s| ==> !IsDigit(s[k])
    decreases |s|
  {
    if |s| == 0 || !IsDigit(s[0]) then 0 else 1 + DigitPrefix(s[1..])
  }

  lemma {:induction false} DigitPrefixStops(d: string, f: char, rest: string)
    requires AllDigits(d) && !IsDigit(f)
    ensures DigitPrefix(d + [f] + rest) == |d|
    decreases |d|
  {
    if |d| > 0 {
      assert (d + [f] + rest)[1..] == d[1..] + [f] + rest;
      DigitPrefixStops(d[1..], f, rest);
    }
  }

  // ---------------------------------------------------------------- encoding

  /** A control sequence introducer, parameter string and final character. */
  function Csi(param: string, final: char): string {
    [ESC, '['] + param + [final]
  }

  function Encode(t: Token): string {
    match t
    case Glyph(c) => [c]
    case LF => "\n"
    case CUU(n) => Csi(Decimal(n), 'A')
    case CUD(n) => Csi(Decimal(n), 'B')
    case IL(n) => Csi(Decimal(n), 'L')
    case EL => Csi("2", 'K')
    case CNL => Csi("", 'E')
    case CHA => Csi("", 'G')
  }

  /** The string a token sequence is written as. */
  function Render(ts: seq<Token>): string
    decreases |ts|
  {
    if |ts| == 0 then "" else Encode(ts[0]) + Render(ts[1..])
  }

  function Repeat(c: char, k: nat): (s: string)
    ensures |s| == k && forall i :: 0 <= i < k ==> s[i] == c
  {
    seq(k, _ => c)
  }

  /** `k` line breaks. */
  function Newlines(k: nat): (ts: seq<Token>)
    ensures |ts| == k
    decreases k
  {
    if k == 0 then [] else [LF] + Newlines(k - 1)
  }

  /** How a character of user text is read: a line break or a glyph. */
  function CharToken(c: char): Token {
    if c == '\n' then LF else Glyph(c)
  }

  /** User text as tokens. */
  function Text(s: string): (ts: seq<Token>)
    ensures |ts| == |s|
    decreases |s|
  {
    if |s| == 0 then [] else [CharToken(s[0])] + Text(s[1..])
  }

  lemma {:induction false} RenderAppend(a: seq<Token>, b: seq<Token>)
    ensures Render(a + b) == Render(a) + Render(b)
    decreases |a|
  {
    if |a| > 0 {
      assert (a + b)[1..] == a[1..] + b;
      RenderAppend(a[1..], b);
    } else {
      assert a + b == b;
    }
  }

  lemma {:induction false} TextAppend(a: string, b: string)
    ensures Text(a + b) == Text(a) + Text(b)
    decreases |a|
  {
    if |a| > 0 {
      assert (a + b)[1..] == a[1..] + b;
      TextAppend(a[1..], b);
    } else {
      assert a + b == b;
    }
  }

  /** Writing user text out as tokens gives back the text. */
  lemma {:induction false} RenderText(s: string)
    ensures Render(Text(s)) == s
    decreases |s|
  {
    if |s| > 0 {
      RenderText(s[1..]);
      assert Text(s)[1..] == Text(s[1..]);
      assert s == [s[0]] + s[1..];
    }
  }

  lemma {:induction false} RenderNewlines(k: nat)
    ensures Render(Newlines(k)) == Repeat('\n', k)
    decreases k
  {
    if k > 0 {
      RenderNewlines(k - 1);
      assert Newlines(k)[1..] == Newlines(k - 1);
      assert Repeat('\n', k) == "\n" + Repeat('\n', k - 1);
    }
  }

  // ---------------------------------------------------------------- decoding

  /** ECMA-48 default: an absent or zero parameter means one. */
  function Count(p: string): (n: nat)
    requires AllDigits(p)
    ensures n >= 1
  {
    if |p| == 0 || ValueOf(p) == 0 then 1 else ValueOf(p)
  }

  /** The control function a parameter string and final character select, if modelled. */
  function ControlOf(p: string, f: char): (r: Option<Token>)
    requires AllDigits(p)
    ensures r.Some? ==> WellFormed(r.value)
  {
    if f == 'A' then Some(CUU(Count(p)))
    else if f == 'B' then Some(CUD(Count(p)))
    else if f == 'L' then Some(IL(Count(p)))
    else if f == 'K' && |p| > 0 && ValueOf(p) == 2 then Some(EL)
    else if f == 'E' && Count(p) == 1 then Some(CNL)
    else if f == 'G' && Count(p) == 1 then Some(CHA)
    else None
  }

  function Prepend(t: Token, r: Option<seq<Token>>): Option<seq<Token>> {
    match r
    case None => None
    case Some(ts) => Some([t] + ts)
  }

  function PrependAll(ts: seq<Token>, r: Option<seq<Token>>): Option<seq<Token>> {
    match r
    case None => None
    case Some(us) => Some(ts + us)
  }

  /** How a terminal reads a string; None for a control character or sequence outside the model. */
  function Parse(s: string): (r: Option<seq<Token>>)
    ensures r.Some? ==> AllWellFormed(r.value)
    decreases |s|
  {
    if |s| == 0 then Some([])
    else if s[0] == '\n' || Printable(s[0]) then Prepend(CharToken(s[0]), Parse(s[1..]))
    else if s[0] != ESC then None
    else if |s| < 2 || s[1] != '[' then None
    else
      var d := DigitPrefix(s[2..]);
      if |s| <= 2 + d then None
      else
        match ControlOf(s[2..2 + d], s[2 + d])
        case None => None
        case Some(t) => Prepend(t, Parse(s[3 + d..]))
  }

  lemma ParseCsi(p: string, f: char, rest: string)
    requires AllDigits(p) && !IsDigit(f)
    requires ControlOf(p, f).Some?
    ensures Parse(Csi(p, f) + rest) == Prepend(ControlOf(p, f).value, Parse(rest))
  {
    var s := Csi(p, f) + rest;
    assert s[2..] == p + [f] + rest;
    DigitPrefixStops(p, f, rest);
    assert s[2..2 + |p|] == p;
    assert s[2 + |p|] == f;
    assert s[3 + |p|..] == rest;
  }

  lemma ParseEncode(t: Token, rest: string)
    requires WellFormed(t)
    ensures Parse(Encode(t) + rest) == Prepend(t, Parse(rest))
  {
    match t
    case Glyph(c) =>
      assert (Encode(t) + rest)[1..] == rest;
    case LF =>
      assert (Encode(t) + rest)[1..] == rest;
    case CUU(n) =>
      DecimalRoundTrip(n);
      ParseCsi(Decimal(n), 'A', rest);
    case CUD(n) =>
      DecimalRoundTrip(n);
      ParseCsi(Decimal(n), 'B', rest);
    case IL(n) =>
      DecimalRoundTrip(n);
      ParseCsi(Decimal(n), 'L', rest);
    case EL =>
      assert ValueOf("2") == 2 by {
        assert "2"[..0] == "";
      }
      ParseCsi("2", 'K', rest);
    case CNL =>
      ParseCsi("", 'E', rest);
    case CHA =>
      ParseCsi("", 'G', rest);
  }

  lemma PrependAllCons(t: Token, ts: seq<Token>, r: Option<seq<Token>>)
    ensures Prepend(t, PrependAll(ts, r)) == PrependAll([t] + ts, r)
  {
    if r.Some? {
      assert [t] + (ts + r.value) == [t] + ts + r.value;
    }
  }

  lemma RenderCons(ts: seq<Token>, rest: string)
    requires |ts| > 0
    ensures Render(ts) + rest == Encode(ts[0]) + (Render(ts[1..]) + rest)
  {
  }

  lemma {:induction false} ParseRender(ts: seq<Token>, rest: string)
    requires AllWellFormed(ts)
    ensures Parse(Render(ts) + rest) == PrependAll(ts, Parse(rest))
    decreases |ts|
  {
    if |ts| == 0 {
      assert Render(ts) + rest == rest;
      if Parse(rest).Some? {
        assert ts + Parse(rest).value == Parse(rest).value;
      }
    } else {
      var tail := Render(ts[1..]) + rest;
      RenderCons(ts, rest);
      ParseEncode(ts[0], tail);
      ParseRender(ts[1..], rest);
      PrependAllCons(ts[0], ts[1..], Parse(rest));
      assert [ts[0]] + ts[1..] == ts;
    }
  }

  /** A terminal reads a rendered payload back as the tokens it was built from. */
  lemma RoundTrip(ts: seq<Token>)
    requires AllWellFormed(ts)
    ensures Parse(Render(ts)) == Some(ts)
  {
    ParseRender(ts, "");
    assert Render(ts) + "" == Render(ts);
    assert ts + [] == ts;
  }

  /** A terminal reads a rendered token sequence back unchanged exactly when it is well formed. */
  lemma ReadBack(ts: seq<Token>)
    ensures Parse(Render(ts)) == Some(ts) <==> AllWellFormed(ts)
  {
    if AllWellFormed(ts) {
      RoundTrip(ts);
    }
  }

  lemma {:induction false} TextAt(s: string, i: nat)
    requires i < |s|
    ensures Text(s)[i] == CharToken(s[i])
    decreases |s|
  {
    if i > 0 {
      TextAt(s[1..], i - 1);
    }
  }

  /** User text is well formed exactly when it is plain text. */
  lemma TextWellFormed(s: string)
    ensures AllWellFormed(Text(s)) <==> PlainText(s)
  {
    forall i | 0 <= i < |s|
      ensures Text(s)[i] == CharToken(s[i])
    {
      TextAt(s, i);
    }
  }

  lemma RenderAppend4(a: seq<Token>, b: seq<Token>, c: seq<Token>, d: seq<Token>)
    ensures Render(a + b + c + d) == Render(a) + Render(b) + Render(c) + Render(d)
  {
    RenderAppend(a + b + c, d);
    RenderAppend(a + b, c);
    RenderAppend(a, b);
  }

  /** Rendering five pieces, each already known, gives the five renderings in order. */
  lemma RenderParts5(a: seq<Token>, b: seq<Token>, c: seq<Token>, d: seq<Token>, e: seq<Token>,
                     ra: string, rb: string, rc: string, rd: string, re: string)
    requires Render(a) == ra && Render(b) == rb && Render(c) == rc && Render(d) == rd && Render(e) == re
    ensures Render(a + b + c + d + e) == ra + rb + rc + rd + re
  {
    RenderAppend(a + b + c + d, e);
    RenderAppend4(a, b, c, d);
  }

  lemma Regroup3<T>(a: seq<T>, b: seq<T>, c: seq<T>)
    ensures a + (b + c) == a + b + c
  {
  }

  lemma RenderPair(t: Token, u: Token)
    ensures Render([t, u]) == Encode(t) + Encode(u)
  {
    RenderAppend([t], [u]);
    assert [t] + [u] == [t, u];
    RenderOne(t);
    RenderOne(u);
  }

  lemma RenderOne(t: Token)
    ensures Render([t]) == Encode(t)
  {
    assert [t][1..] == [];
    assert Encode(t) + "" == Encode(t);
  }

  lemma WellFormedAppend(a: seq<Token>, b: seq<Token>)
    ensures AllWellFormed(a + b) <==> AllWellFormed(a) && AllWellFormed(b)
  {
    if AllWellFormed(a) && AllWellFormed(b) {
      forall i | 0 <= i < |a + b|
        ensures WellFormed((a + b)[i])
      {
        if i >= |a| {
          assert (a + b)[i] == b[i - |a|];
        }
      }
    }
    if AllWellFormed(a + b) {
      forall i | 0 <= i < |a|
        ensures WellFormed(a[i])
      {
        assert (a + b)[i] == a[i];
      }
      forall i | 0 <= i < |b|
        ensures WellFormed(b[i])
      {
        assert (a + b)[|a| + i] == b[i];
      }
    }
  }

  lemma WellFormedParts5(a: seq<Token>, b: seq<Token>, c: seq<Token>, d: seq<Token>, e: seq<Token>)
    ensures AllWellFormed(a + b + c + d + e) <==>
            AllWellFormed(a) && AllWellFormed(b) && AllWellFormed(c) && AllWellFormed(d) && AllWellFormed(e)
  {
    WellFormedAppend(a + b + c + d, e);
    WellFormedAppend(a + b + c, d);
    WellFormedAppend(a + b, c);
    WellFormedAppend(a, b);
  }

  /** `k` line breaks are `i` line breaks followed by the other `k - i`. */
  lemma {:induction false} NewlinesSplit(i: nat, k: nat)
    requires i <= k
    ensures Newlines(k) == Newlines(i) + Newlines(k - i)
    decreases i
  {
    if i == 0 {
      assert Newlines(0) + Newlines(k) == Newlines(k);
    } else {
      var front, rest := Newlines(i - 1), Newlines(k - i);
      NewlinesSplit(i - 1, k - 1);
      assert Newlines(k) == [LF] + (front + rest);
      assert [LF] + (front + rest) == ([LF] + front) + rest;
    }
  }

  lemma {:induction false} NewlinesWellFormed(k: nat)
    ensures AllWellFormed(Newlines(k))
    decreases k
  {
    if k > 0 {
      NewlinesWellFormed(k - 1);
      WellFormedAppend([LF], Newlines(k - 1));
    }
  }
}

=== FILE: behaviour.dfy ===
/**
 * What the bar's payloads do to a terminal whose cursor rests at column 0 of the
 * screen's last row, which is also the bar's last row.
 */
module Behaviour {
  import opened Content
  import opened Ansi
  import opened Terminal
  import opened BottomBar

  /** The bar's rows: the last `h` rows of the screen. */
  function BarView(s: Screen, h: nat): seq<string>
    requires h <= |s.rows|
  {
    s.rows[|s.rows| - h..]
  }

  /** The last line of `content`: where its writing leaves the cursor's column. */
  function LastLine(content: string): string {
    Lines(content)[LineCount(content) - 1]
  }

  /** `init` scrolls `height - 1` blank rows in below the cursor's row; they and it form the bar. */
  lemma InitReservesBar(bar: Bar, s: Screen)
    requires s.Resting() && bar.height <= |s.rows|
    ensures Run(s, InitPayload(bar)) == Screen(s.rows[bar.height - 1..] + Blank(bar.height - 1), |s.rows| - 1, 0)
  {
    if bar.height > 1 {
      ScrollFeeds(s, bar.height - 1);
    } else {
      assert s.rows[0..] + Blank(0) == s.rows;
    }
  }

  /** Up `k` rows to row `r`, then `n` blank rows inserted there. */
  lemma UpAndInsert(t: Screen, k: nat, r: nat, n: nat)
    requires t.Valid() && t.row == r + k && r + n <= |t.rows|
    ensures Run(t, [CUU(k), IL(n)]) == Screen(t.rows[..r] + Blank(n) + t.rows[r..|t.rows| - n], r, 0)
  {
    var t1 := t.(row := r);
    assert Step(t, CUU(k)) == t1;
    InsertLines(t1, n);
    RunAppend(t, [CUU(k)], [IL(n)]);
    RunOne(t, CUU(k));
    RunOne(t1, IL(n));
    assert [CUU(k)] + [IL(n)] == [CUU(k), IL(n)];
  }

  /** The rows after scrolling `n` and inserting `n` blank rows above the bar's `h` rows. */
  lemma ScrolledRows(rows: seq<string>, h: nat, n: nat)
    requires h + n <= |rows|
    ensures (rows[n..] + Blank(n))[..|rows| - h - n] + Blank(n)
            + (rows[n..] + Blank(n))[|rows| - h - n..|rows[n..] + Blank(n)| - n]
            == rows[n..|rows| - h] + Blank(n) + rows[|rows| - h..]
  {
    assert (rows[n..] + Blank(n))[..|rows| - h - n] == rows[n..|rows| - h];
    assert (rows[n..] + Blank(n))[|rows| - h - n..|rows| - n] == rows[|rows| - h..];
  }

  /**
   * The first part of `print` from the last row: `n` line breaks scroll the screen,
   * the cursor goes up to the bar's top row and `n` blank rows are inserted there.
   */
  lemma MakeRoomAtBottom(s: Screen, h: nat, n: nat)
    requires s.Valid() && s.row == |s.rows| - 1
    requires h >= 1 && n >= 1 && |s.rows| >= h + n
    ensures Run(s, Newlines(n) + [CUU(h + n - 1), IL(n)]) ==
            Screen(s.rows[n..|s.rows| - h] + Blank(n) + s.rows[|s.rows| - h..], |s.rows| - h - n, 0)
  {
    ScrollFeeds(s, n);
    InsertAfterScroll(s, h, n);
    RunSplit(s, Newlines(n) + [CUU(h + n - 1), IL(n)], Newlines(n), [CUU(h + n - 1), IL(n)],
      Screen(s.rows[n..] + Blank(n), |s.rows| - 1, 0),
      Screen(s.rows[n..|s.rows| - h] + Blank(n) + s.rows[|s.rows| - h..], |s.rows| - h - n, 0));
  }

  /** Once scrolled: up to the bar's top row, and `n` blank rows inserted there. */
  lemma InsertAfterScroll(s: Screen, h: nat, n: nat)
    requires s.Valid() && h >= 1 && n >= 1 && |s.rows| >= h + n
    ensures Run(Screen(s.rows[n..] + Blank(n), |s.rows| - 1, 0), [CUU(h + n - 1), IL(n)]) ==
            Screen(s.rows[n..|s.rows| - h] + Blank(n) + s.rows[|s.rows| - h..], |s.rows| - h - n, 0)
  {
    UpAndInsert(Screen(s.rows[n..] + Blank(n), |s.rows| - 1, 0), h + n - 1, |s.rows| - h - n, n);
    ScrolledRows(s.rows, h, n);
  }

  /** Text written from column 0 of the first of enough blank rows fills them with its lines. */
  lemma WriteOverBlanks(above: seq<string>, content: string, below: seq<string>)
    ensures Run(Screen(above + Blank(LineCount(content)) + below, |above|, 0), Text(content)) ==
            Screen(above + Lines(content) + below, |above| + LineCount(content) - 1, |LastLine(content)|)
  {
    var n := LineCount(content);
    var ls := Lines(content);
    var rows := above + Blank(n) + below;
    JoinLines(content);
    WriteLines(Screen(rows, |above|, 0), ls);
    assert rows[..|above|] == above;
    assert rows[|above| + n..] == below;
  }

  /** The same, stated for the rows of a screen `s` with a bar of height `h`. */
  lemma WriteAboveBar(s: Screen, h: nat, n: nat, content: string)
    requires s.Valid() && n == LineCount(content) && |s.rows| >= h + n
    ensures Run(Screen(s.rows[n..|s.rows| - h] + Blank(n) + s.rows[|s.rows| - h..], |s.rows| - h - n, 0), Text(content))
            == Screen(s.rows[n..|s.rows| - h] + Lines(content) + s.rows[|s.rows| - h..], |s.rows| - h - 1, |LastLine(content)|)
  {
    WriteOverBlanks(s.rows[n..|s.rows| - h], content, s.rows[|s.rows| - h..]);
  }

  /**
   * The shape of `print` from the last row: scroll `n` rows, go up to the bar's top
   * row, insert `n` blank rows there, write something that fills them with `mid` and
   * leaves the cursor on the row above the bar, then go down `h` rows.
   */
  lemma AroundBar(s: Screen, h: nat, n: nat, write: seq<Token>, mid: seq<string>, last: nat)
    requires s.Valid() && s.row == |s.rows| - 1
    requires h >= 1 && n >= 1 && |s.rows| >= h + n
    requires Run(Screen(s.rows[n..|s.rows| - h] + Blank(n) + s.rows[|s.rows| - h..], |s.rows| - h - n, 0), write)
             == Screen(s.rows[n..|s.rows| - h] + mid + s.rows[|s.rows| - h..], |s.rows| - h - 1, last)
    ensures Run(s, Newlines(n) + [CUU(h + n - 1), IL(n)] + write + [CUD(h)])
            == Screen(s.rows[n..|s.rows| - h] + mid + s.rows[|s.rows| - h..], |s.rows| - 1, last)
  {
    MakeRoomAtBottom(s, h, n);
    RunOne(Screen(s.rows[n..|s.rows| - h] + mid + s.rows[|s.rows| - h..], |s.rows| - h - 1, last), CUD(h));
    RunSplit3(s, Newlines(n) + [CUU(h + n - 1), IL(n)] + write + [CUD(h)],
      Newlines(n) + [CUU(h + n - 1), IL(n)], write, [CUD(h)],
      Screen(s.rows[n..|s.rows| - h] + Blank(n) + s.rows[|s.rows| - h..], |s.rows| - h - n, 0),
      Screen(s.rows[n..|s.rows| - h] + mid + s.rows[|s.rows| - h..], |s.rows| - h - 1, last),
      Screen(s.rows[n..|s.rows| - h] + mid + s.rows[|s.rows| - h..], |s.rows| - 1, last));
  }

  /** `print`'s writing, with the content's line count `n` named. */
  lemma PrintRuns(s: Screen, h: nat, n: nat, content: string)
    requires s.Resting() && h >= 1 && n == LineCount(content) && |s.rows| >= h + n
    ensures Run(s, Newlines(n) + [CUU(h + n - 1), IL(n)] + Text(content) + [CUD(h)])
            == Screen(s.rows[n..|s.rows| - h] + Lines(content) + s.rows[|s.rows| - h..], |s.rows| - 1, |LastLine(content)|)
  {
    WriteAboveBar(s, h, n, content);
    AroundBar(s, h, n, Text(content), Lines(content), |LastLine(content)|);
  }

  /**
   * Everything `print` writes before its last `ESC [ E`, from the resting position: the
   * screen scrolls up by the content's lines, and those lines appear just above the
   * bar; the cursor is back on the last row.
   */
  lemma PrintBodyAtBottom(bar: Bar, s: Screen, content: string)
    requires s.Resting() && |s.rows| >= bar.height + LineCount(content)
    ensures Run(s, PrintBody(bar, content)) ==
            Screen(s.rows[LineCount(content)..|s.rows| - bar.height] + Lines(content) + s.rows[|s.rows| - bar.height..],
                   |s.rows| - 1, |LastLine(content)|)
  {
    PrintRuns(s, bar.height, LineCount(content), content);
    PrintBodyParts(bar, content);
  }

  /**
   * `print(content_str)` from the resting position: the rows above the bar scroll up by
   * the content's lines, those lines appear right above the bar, the bar's rows are
   * untouched and the cursor rests again.
   */
  lemma PrintInsertsAboveBar(bar: Bar, s: Screen, content: string)
    requires s.Resting() && |s.rows| >= bar.height + LineCount(content)
    ensures Run(s, PrintPayload(bar, content)) ==
            Screen(s.rows[LineCount(content)..|s.rows| - bar.height] + Lines(content) + s.rows[|s.rows| - bar.height..],
                   |s.rows| - 1, 0)
  {
    PrintBodyAtBottom(bar, s, content);
    RunAppend(s, PrintBody(bar, content), [CNL]);
    RunOne(Screen(s.rows[LineCount(content)..|s.rows| - bar.height] + Lines(content) + s.rows[|s.rows| - bar.height..],
                  |s.rows| - 1, |LastLine(content)|), CNL);
  }

  /** The same, read row by row: what is above the bar, what is in it, where the cursor is. */
  lemma PrintKeepsBar(bar: Bar, s: Screen, content: string)
    requires s.Resting() && |s.rows| >= bar.height + LineCount(content)
    ensures Run(s, PrintPayload(bar, content)).Resting()
    ensures BarView(Run(s, PrintPayload(bar, content)), bar.height) == BarView(s, bar.height)
    ensures Run(s, PrintPayload(bar, content)).rows[|s.rows| - bar.height - LineCount(content)..|s.rows| - bar.height]
            == Lines(content)
    ensures Run(s, PrintPayload(bar, content)).rows[..|s.rows| - bar.height - LineCount(content)]
            == s.rows[LineCount(content)..|s.rows| - bar.height]
  {
    PrintInsertsAboveBar(bar, s, content);
  }

  /**
   * Without that room the source's `print` overwrites the bar: a two-row bar showing
   * "B1" and "B2" on a three-row screen, and a two-line `print`, leave "b" where "B1" was.
   */
  lemma PrintOverflowsBar()
    ensures Run(Screen(["A", "B1", "B2"], 2, 0), PrintPayload(Bar(2), "a\nb")) == Screen(["a", "b", "B2"], 2, 0)
    ensures BarView(Run(Screen(["A", "B1", "B2"], 2, 0), PrintPayload(Bar(2), "a\nb")), 2) == ["b", "B2"]
  {
    OverflowTokens();
    var s0 := Screen(["A", "B1", "B2"], 2, 0);
    var s4 := Screen(["", "", "B2"], 0, 0);
    var s7 := Screen(["a", "b", "B2"], 1, 1);
    var s9 := Screen(["a", "b", "B2"], 2, 0);
    OverflowMakeRoom(s0, s4);
    OverflowWrite(s4, s7);
    OverflowBack(s7, s9);
    RunSplit3(s0, PrintPayload(Bar(2), "a\nb"), [LF, LF, CUU(3), IL(2)], [Glyph('a'), LF, Glyph('b')], [CUD(2), CNL],
      s4, s7, s9);
  }

  /** The example's `print` payload: making room, the text, going back down. */
  lemma OverflowTokens()
    ensures PrintPayload(Bar(2), "a\nb") == [LF, LF, CUU(3), IL(2)] + [Glyph('a'), LF, Glyph('b')] + [CUD(2), CNL]
  {
    var c := "a\nb";
    assert c[1..] == "\nb" && c[1..][1..] == "b" && c[1..][1..][1..] == "";
    assert LineCount(c) == 2;
    assert Text(c) == [Glyph('a'), LF, Glyph('b')];
    assert Newlines(2) == [LF, LF];
  }

  /** Two line feeds scroll "A" and "B1" away; `ESC [ 3 A` stops at the top row, and `ESC [ 2 L` there pushes "B2" back down. */
  lemma OverflowMakeRoom(s0: Screen, s4: Screen)
    requires s0 == Screen(["A", "B1", "B2"], 2, 0) && s4 == Screen(["", "", "B2"], 0, 0)
    ensures Run(s0, [LF, LF, CUU(3), IL(2)]) == s4
  {
    var s1 := Screen(["B1", "B2", ""], 2, 0);
    var s2 := Screen(["B2", "", ""], 2, 0);
    var s3 := Screen(["B2", "", ""], 0, 0);
    RunOne(s0, LF);
    RunOne(s1, LF);
    RunOne(s2, CUU(3));
    RunOne(s3, IL(2));
    assert (s3.rows[..0] + Blank(2) + s3.rows[0..])[..3] == s4.rows;
    RunSplit(s0, [LF, LF], [LF], [LF], s1, s2);
    RunSplit(s2, [CUU(3), IL(2)], [CUU(3)], [IL(2)], s3, s4);
    RunSplit(s0, [LF, LF, CUU(3), IL(2)], [LF, LF], [CUU(3), IL(2)], s2, s4);
  }

  /** "a\nb" written from the top row fills the two blank rows inserted there. */
  lemma OverflowWrite(s4: Screen, s7: Screen)
    requires s4 == Screen(["", "", "B2"], 0, 0) && s7 == Screen(["a", "b", "B2"], 1, 1)
    ensures Run(s4, [Glyph('a'), LF, Glyph('b')]) == s7
  {
    var s5 := Screen(["a", "", "B2"], 0, 1);
    var s6 := Screen(["a", "", "B2"], 1, 0);
    assert Put("", 0, 'a') == "a" && Put("", 0, 'b') == "b";
    RunOne(s4, Glyph('a'));
    RunOne(s5, LF);
    RunOne(s6, Glyph('b'));
    RunSplit(s4, [Glyph('a'), LF], [Glyph('a')], [LF], s5, s6);
    RunSplit(s4, [Glyph('a'), LF, Glyph('b')], [Glyph('a'), LF], [Glyph('b')], s6, s7);
  }

  /** `ESC [ 2 B` stops at the last row, and `ESC [ E` there only returns to column 0. */
  lemma OverflowBack(s7: Screen, s9: Screen)
    requires s7 == Screen(["a", "b", "B2"], 1, 1) && s9 == Screen(["a", "b", "B2"], 2, 0)
    ensures Run(s7, [CUD(2), CNL]) == s9
  {
    var s8 := Screen(["a", "b", "B2"], 2, 1);
    RunOne(s7, CUD(2));
    RunOne(s8, CNL);
    RunSplit(s7, [CUD(2), CNL], [CUD(2)], [CNL], s8, s9);
  }

  /** `ESC [ 2 K` then single-line text from column 0: the cursor row becomes the text. */
  lemma EraseAndWrite(s: Screen, content: string)
    requires s.Valid() && s.col == 0 && SingleLine(content)
    ensures Run(s, [EL] + Text(content)) == Screen(s.rows[s.row := content], s.row, |content|)
  {
    RunOne(s, EL);
    assert Step(s, EL) == Screen(s.rows[s.row := ""], s.row, 0);
    WriteText(Screen(s.rows[s.row := ""], s.row, 0), content);
    ErasedThenWritten(s.rows, s.row, content);
    RunSplit(s, [EL] + Text(content), [EL], Text(content), Screen(s.rows[s.row := ""], s.row, 0), Screen(s.rows[s.row := content], s.row, |content|));
  }

  lemma ErasedThenWritten(rows: seq<string>, r: nat, content: string)
    requires r < |rows|
    ensures rows[r := ""][r := "" + content] == rows[r := content]
  {
    assert "" + content == content;
  }

  /** Up `k` rows to row `r`, erase and write there, then down `k` rows again. */
  lemma UpWriteDown(s: Screen, k: nat, r: nat, content: string)
    requires s.Valid() && s.col == 0 && s.row == r + k && SingleLine(content)
    ensures Run(s, [CUU(k), EL] + Text(content) + [CUD(k)]) == Screen(s.rows[r := content], s.row, |content|)
  {
    Up(s, k, r);
    EraseAndWrite(Screen(s.rows, r, s.col), content);
    Down(Screen(s.rows[r := content], r, |content|), k, r + k);
    SplitPair(CUU(k), EL, Text(content), [CUD(k)]);
    RunSplit3(s, [CUU(k), EL] + Text(content) + [CUD(k)], [CUU(k)], [EL] + Text(content), [CUD(k)],
      Screen(s.rows, r, s.col), Screen(s.rows[r := content], r, |content|), Screen(s.rows[r := content], r + k, |content|));
  }

  /**
   * Everything `print_bar_line` writes before its last `ESC [ E`, with the cursor at
   * column 0 of the bar's last row, wherever that row is: bar row `y` becomes the
   * content and the cursor is back on the same row.
   */
  lemma BarLineBodyFrom(bar: Bar, s: Screen, y: int, content: string)
    requires s.Valid() && s.col == 0 && s.row >= bar.height - 1
    requires 0 <= y < bar.height && SingleLine(content)
    ensures Run(s, BarLineBody(bar, y, content)) ==
            Screen(s.rows[s.row - bar.height + 1 + y := content], s.row, |content|)
  {
    if y == bar.height - 1 {
      EraseAndWrite(s, content);
    } else {
      UpWriteDown(s, bar.height - y - 1, s.row - bar.height + 1 + y, content);
    }
  }

  /**
   * `print_bar_line(y, content_str)` from the resting position: bar row `y` becomes the
   * content, every other row is unchanged and the cursor rests again.
   */
  lemma BarLineRewritesRow(bar: Bar, s: Screen, y: int, content: string)
    requires s.Resting() && bar.height <= |s.rows|
    requires 0 <= y < bar.height && SingleLine(content)
    ensures Run(s, BarLinePayload(bar, y, content)) ==
            Screen(s.rows[|s.rows| - bar.height + y := content], |s.rows| - 1, 0)
  {
    var written := Screen(s.rows[|s.rows| - bar.height + y := content], |s.rows| - 1, |content|);
    BarLineBodyAtBottom(bar, s, y, content, written);
    NextLineAtBottom(written);
    RunSplit(s, BarLinePayload(bar, y, content), BarLineBody(bar, y, content), [CNL],
      written, Screen(s.rows[|s.rows| - bar.height + y := content], |s.rows| - 1, 0));
  }

  /**
   * `BarLineBodyFrom` from the resting position, restated with the resulting screen named
   * by the caller; it adds no fact and exists only to keep the caller's proof small.
   */
  lemma BarLineBodyAtBottom(bar: Bar, s: Screen, y: int, content: string, written: Screen)
    requires s.Resting() && bar.height <= |s.rows|
    requires 0 <= y < bar.height && SingleLine(content)
    requires written == Screen(s.rows[|s.rows| - bar.height + y := content], |s.rows| - 1, |content|)
    ensures Run(s, BarLineBody(bar, y, content)) == written
  {
    BarLineBodyFrom(bar, s, y, content);
  }

  /** The same, read as the bar: its row `y` changes, the rest of it does not. */
  lemma BarLineKeepsBar(bar: Bar, s: Screen, y: int, content: string)
    requires s.Resting() && bar.height <= |s.rows|
    requires 0 <= y < bar.height && SingleLine(content)
    ensures Run(s, BarLinePayload(bar, y, content)).Resting()
    ensures BarView(Run(s, BarLinePayload(bar, y, content)), bar.height) == BarView(s, bar.height)[y := content]
  {
    var t := Screen(s.rows[|s.rows| - bar.height + y := content], |s.rows| - 1, 0);
    BarLineTo(bar, s, y, content, t);
    RowOfBarSet(s, bar.height, y, content, t);
  }

  /** The screen `print_bar_line` leaves, read as the bar. */
  lemma RowOfBarSet(s: Screen, h: nat, y: nat, content: string, t: Screen)
    requires s.Resting() && y < h <= |s.rows|
    requires t == Screen(s.rows[|s.rows| - h + y := content], |s.rows| - 1, 0)
    ensures t.Resting() && BarView(t, h) == BarView(s, h)[y := content]
  {
    UpdateInBar(s.rows, h, y, content);
  }

  /**
   * `BarLineRewritesRow` restated with the resulting screen named by the caller; it adds
   * no fact and exists only to keep the caller's proof small.
   */
  lemma BarLineTo(bar: Bar, s: Screen, y: int, content: string, t: Screen)
    requires s.Resting() && bar.height <= |s.rows|
    requires 0 <= y < bar.height && SingleLine(content)
    requires t == Screen(s.rows[|s.rows| - bar.height + y := content], |s.rows| - 1, 0)
    ensures Run(s, BarLinePayload(bar, y, content)) == t
  {
    BarLineRewritesRow(bar, s, y, content);
  }

  lemma UpdateInBar(rows: seq<string>, h: nat, y: nat, content: string)
    requires y < h <= |rows|
    ensures rows[|rows| - h + y := content][|rows| - h..] == rows[|rows| - h..][y := content]
  {
  }

  // ---------------------------------------------------------------- final line

  /**
   * `print_final_line` from rest: one line feed scrolls the screen by a row, so the
   * cursor ends at column 0 of a fresh, empty last row and the bar sits directly above it.
   */
  lemma FinalLeavesBarAbove(bar: Bar, s: Screen)
    requires s.Resting() && bar.height <= |s.rows|
    ensures Run(s, FinalPayload(bar)) == Screen(s.rows[1..] + [""], |s.rows| - 1, 0)
    ensures bar.height < |s.rows| ==>
              Run(s, FinalPayload(bar)).rows[|s.rows| - 1 - bar.height..|s.rows| - 1] == BarView(s, bar.height)
  {
    ScrollFeeds(s, 1);
    assert Newlines(1) == [LF];
    assert s.rows[1..] + Blank(1) == s.rows[1..] + [""];
  }

  // ---------------------------------------------------------------- sessions

  /** A call fits when the lines it prints fit on the screen above the bar. */
  predicate Fits(bar: Bar, screenHeight: nat, op: Op) {
    match op
    case PrintOp(c, _) => screenHeight >= bar.height + LineCount(c)
    case BarLineOp(_, _) => screenHeight >= bar.height
    case EmitOp(rec) => screenHeight >= bar.height + LineCount(rec)
  }

  /** The bar as the caller means it: each bar-line call sets one row; prints leave it. */
  function Repaint(view: seq<string>, ops: seq<Op>): (r: seq<string>)
    ensures |r| == |view|
    decreases |ops|
  {
    if |ops| == 0 then view
    else
      var next :=
        match ops[0]
        case BarLineOp(y, c) => if 0 <= y < |view| then view[y := c] else view
        case _ => view;
      Repaint(next, ops[1..])
  }

  lemma OpKeepsBar(bar: Bar, s: Screen, op: Op)
    requires s.Resting() && |s.rows| >= bar.height && Fits(bar, |s.rows|, op)
    requires Apply(bar, op).Success?
    ensures Run(s, Apply(bar, op).value).Resting()
    ensures BarView(Run(s, Apply(bar, op).value), bar.height) == Repaint(BarView(s, bar.height), [op])
  {
    assert [op][1..] == [];
    match op
    case PrintOp(c, _) =>
      PrintKeepsBar(bar, s, c);
    case EmitOp(rec) =>
      PrintKeepsBar(bar, s, rec);
    case BarLineOp(y, c) =>
      BarLineKeepsBar(bar, s, y, c);
  }

  /**
   * Any block of calls that all succeed and fit, run from the resting position, leaves
   * the cursor resting and the bar showing exactly what the bar-line calls put there:
   * prints and log records never disturb it.
   */
  lemma {:induction false} SessionKeepsBar(bar: Bar, s: Screen, ops: seq<Op>)
    requires s.Resting() && |s.rows| >= bar.height
    requires forall i :: 0 <= i < |ops| ==> Fits(bar, |s.rows|, ops[i])
    requires RunOps(bar, ops).fault.None?
    ensures Run(s, RunOps(bar, ops).output).Resting()
    ensures BarView(Run(s, RunOps(bar, ops).output), bar.height) == Repaint(BarView(s, bar.height), ops)
    decreases |ops|
  {
    if |ops| > 0 {
      var op := ops[0];
      assert Apply(bar, op).Success?;
      var p := Apply(bar, op).value;
      OpKeepsBar(bar, s, op);
      var s1 := Run(s, p);
      assert forall i :: 0 <= i < |ops[1..]| ==> Fits(bar, |s1.rows|, ops[1..][i]);
      SessionKeepsBar(bar, s1, ops[1..]);
      assert RunOps(bar, ops).output == p + RunOps(bar, ops[1..]).output;
      RunAppend(s, p, RunOps(bar, ops[1..]).output);
      assert [op][1..] == [];
    }
  }
}

=== FILE: bottombar.dfy ===
/**
 * The BottomBar class: a bar of `height` rows kept at the bottom of a terminal. Each
 * operation is modelled as the payload it writes, as tokens. Its assertions are
 * `requires` of the payload builders and `Failure(AssertionError(...))` of the checked
 * operations, which write nothing when an assertion fails.
 */
module BottomBar {
  import opened Wrappers
  import opened Content
  import opened Ansi

  type Height = h: nat | h > 0 witness 1

  /** The only state of a BottomBar: its height, fixed at construction. */
  datatype Bar = Bar(height: Height)

  /** The exceptions a call can raise: a failed `assert`, or Python's `print` refusing keyword names. */
  datatype Fault =
    | AssertionError(message: string)
    | TypeError(keywords: set<string>)

  const NonPositiveHeight := "bar_height must be positive"
  const ReservedEnd := "end parameter is reserved and cannot be used."
  const RowOutOfRange := "y must be within the print bar height"
  const MultiLineContent := "content_str must be a single line without new lines"

  /** The keyword arguments Python's built-in `print` accepts. */
  const PrintKeywords: set<string> := {"sep", "end", "file", "flush"}

  /** `BottomBar(bar_height)` */
  function Create(barHeight: int): (r: Result<Bar, Fault>)
    ensures r.Success? <==> barHeight > 0
    ensures r.Success? ==> r.value.height == barHeight
    ensures r.Failure? ==> r.error == AssertionError(NonPositiveHeight)
  {
    if barHeight > 0 then Success(Bar(barHeight)) else Failure(AssertionError(NonPositiveHeight))
  }

  // ---------------------------------------------------------------- payloads

  /** `init`: `height - 1` line breaks; the closing `print("", end='')` writes nothing. */
  function InitPayload(bar: Bar): (p: seq<Token>)
    ensures Render(p) == Repeat('\n', bar.height - 1)
  {
    RenderNewlines(bar.height - 1);
    Newlines(bar.height - 1)
  }

  /** `print` up to its last control function: make room, go up past the bar, insert, write, go down. */
  function PrintBody(bar: Bar, content: string): seq<Token> {
    var n := LineCount(content);
    Newlines(n) + [CUU(bar.height + n - 1), IL(n)] + Text(content) + [CUD(bar.height)]
  }

  /** `print(content_str)` */
  function PrintPayload(bar: Bar, content: string): seq<Token> {
    PrintBody(bar, content) + [CNL]
  }

  /** `print_bar_line` up to its last control function: go to row `y`, erase it, write, come back. */
  function BarLineBody(bar: Bar, y: int, content: string): seq<Token>
    requires 0 <= y < bar.height
  {
    if y == bar.height - 1 then [EL] + Text(content)
    else
      var k := bar.height - y - 1;
      [CUU(k), EL] + Text(content) + [CUD(k)]
  }

  /** `print_bar_line(y, content_str)` once its assertions hold. */
  function BarLinePayload(bar: Bar, y: int, content: string): seq<Token>
    requires 0 <= y < bar.height && SingleLine(content)
  {
    BarLineBody(bar, y, content) + [CNL]
  }

  /** `print_final_line`: exactly one line break. */
  function FinalPayload(bar: Bar): (p: seq<Token>)
    ensures Render(p) == "\n"
  {
    RenderOne(LF);
    [LF]
  }

  // ---------------------------------------------------------------- checked operations

  /**
   * `print(content_str, **kwargs)`, with only the keyword names of `kwargs`. An `end`
   * keyword trips the assertion; any other name Python's `print` does not accept makes
   * it raise `TypeError` before it writes anything.
   */
  function Print(bar: Bar, content: string, kwargs: set<string>): (r: Result<seq<Token>, Fault>)
    ensures r.Success? <==> "end" !in kwargs && kwargs <= PrintKeywords
    ensures r.Success? ==> r.value == PrintPayload(bar, content)
    ensures "end" in kwargs ==> r == Failure(AssertionError(ReservedEnd))
    ensures "end" !in kwargs && !(kwargs <= PrintKeywords) ==> r == Failure(TypeError(kwargs - PrintKeywords))
  {
    if "end" in kwargs then Failure(AssertionError(ReservedEnd))
    else if !(kwargs <= PrintKeywords) then Failure(TypeError(kwargs - PrintKeywords))
    else Success(PrintPayload(bar, content))
  }

  /** `print_bar_line(y, content_str)`: the row is checked before the content. */
  function PrintBarLine(bar: Bar, y: int, content: string): (r: Result<seq<Token>, Fault>)
    ensures r.Success? <==> 0 <= y < bar.height && SingleLine(content)
    ensures r.Success? ==> r.value == BarLinePayload(bar, y, content)
    ensures !(0 <= y < bar.height) ==> r == Failure(AssertionError(RowOutOfRange))
    ensures 0 <= y < bar.height && !SingleLine(content) ==> r == Failure(AssertionError(MultiLineContent))
  {
    if !(0 <= y < bar.height) then Failure(AssertionError(RowOutOfRange))
    else if !SingleLine(content) then Failure(AssertionError(MultiLineContent))
    else Success(BarLinePayload(bar, y, content))
  }

  /** `LoggingBottomBarHandler.emit`: the formatted record goes to `print`, unchanged, with no keywords. */
  function Emit(bar: Bar, formatted: string): (r: Result<seq<Token>, Fault>)
    ensures r == Success(PrintPayload(bar, formatted))
  {
    Print(bar, formatted, {})
  }

  // ---------------------------------------------------------------- sessions

  /** A call made inside a `with BottomBar(...) as bar:` block. */
  datatype Op =
    | PrintOp(content: string, kwargs: set<string>)
    | BarLineOp(y: int, content: string)
    | EmitOp(record: string)

  function Apply(bar: Bar, op: Op): Result<seq<Token>, Fault> {
    match op
    case PrintOp(c, kw) => Print(bar, c, kw)
    case BarLineOp(y, c) => PrintBarLine(bar, y, c)
    case EmitOp(rec) => Emit(bar, rec)
  }

  /** What a block writes, and the assertion failure that ended it early, if any. */
  datatype Outcome = Outcome(output: seq<Token>, fault: Option<Fault>)

  /** The calls of a block in order; the first failing call writes nothing and ends the block. */
  function RunOps(bar: Bar, ops: seq<Op>): (o: Outcome)
    ensures o.fault.None? <==> forall i :: 0 <= i < |ops| ==> Apply(bar, ops[i]).Success?
    decreases |ops|
  {
    if |ops| == 0 then Outcome([], None)
    else
      match Apply(bar, ops[0])
      case Failure(e) => Outcome([], Some(e))
      case Success(p) =>
        var rest := RunOps(bar, ops[1..]);
        assert forall i :: 1 <= i < |ops| ==> ops[i] == ops[1..][i - 1];
        Outcome(p + rest.output, rest.fault)
  }

  /**
   * `with BottomBar(h) as bar: <ops>`: `__enter__` runs `init`, `__exit__` always runs
   * `print_final_line` and does not swallow the exception, so the block raises exactly
   * when one of its calls does.
   */
  function Session(bar: Bar, ops: seq<Op>): (o: Outcome)
    ensures o.fault.None? <==> forall i :: 0 <= i < |ops| ==> Apply(bar, ops[i]).Success?
  {
    var body := RunOps(bar, ops);
    Outcome(InitPayload(bar) + body.output + FinalPayload(bar), body.fault)
  }

  // ---------------------------------------------------------------- the strings written

  /** `print` up to its last control function, with its parts spelled out. */
  lemma PrintBodyParts(bar: Bar, content: string)
    ensures PrintBody(bar, content) ==
            Newlines(LineCount(content)) + [CUU(bar.height + LineCount(content) - 1), IL(LineCount(content))]
            + Text(content) + [CUD(bar.height)]
  {
  }

  /**
   * `print` writes `n` line breaks, cursor up `height + n - 1`, insert `n` lines, the
   * content, cursor down `height`, then `ESC [ E`; `n` is one more than the content's
   * line breaks.
   */
  lemma PrintWritesSourcePayload(bar: Bar, content: string)
    ensures Render(PrintPayload(bar, content)) ==
              Repeat('\n', NewlineCount(content) + 1)
              + Csi(Decimal(bar.height + NewlineCount(content)), 'A') + Csi(Decimal(NewlineCount(content) + 1), 'L')
              + content + Csi(Decimal(bar.height), 'B') + Csi("", 'E')
  {
    PrintBodyParts(bar, content);
    PrintRenders(bar.height, LineCount(content), content);
  }

  /** The rendering of `print`'s tokens, with the content's line count `n` named. */
  lemma PrintRenders(h: nat, n: nat, content: string)
    requires n >= 1
    ensures Render(Newlines(n) + [CUU(h + n - 1), IL(n)] + Text(content) + [CUD(h)] + [CNL]) ==
            Repeat('\n', n) + Csi(Decimal(h + n - 1), 'A') + Csi(Decimal(n), 'L')
            + content + Csi(Decimal(h), 'B') + Csi("", 'E')
  {
    RenderNewlines(n);
    RenderPair(CUU(h + n - 1), IL(n));
    RenderText(content);
    RenderOne(CUD(h));
    RenderOne(CNL);
    RenderParts5(Newlines(n), [CUU(h + n - 1), IL(n)], Text(content), [CUD(h)], [CNL],
                 Repeat('\n', n), Csi(Decimal(h + n - 1), 'A') + Csi(Decimal(n), 'L'), content,
                 Csi(Decimal(h), 'B'), Csi("", 'E'));
    Regroup3(Repeat('\n', n), Csi(Decimal(h + n - 1), 'A'), Csi(Decimal(n), 'L'));
  }

  /**
   * `print_bar_line` on the last bar row erases it, writes and ends with `ESC [ E`, with
   * no cursor up or down; on any other row it goes up and comes back down by the same
   * count, `height - y - 1`, at least one.
   */
  lemma BarLineWritesSourcePayload(bar: Bar, y: int, content: string)
    requires 0 <= y < bar.height && SingleLine(content)
    ensures y == bar.height - 1 ==>
              Render(BarLinePayload(bar, y, content)) == Csi("2", 'K') + content + Csi("", 'E')
    ensures y < bar.height - 1 ==>
              var k := bar.height - y - 1;
              k >= 1 &&
              Render(BarLinePayload(bar, y, content)) ==
                Csi(Decimal(k), 'A') + Csi("2", 'K') + content + Csi(Decimal(k), 'B') + Csi("", 'E')
  {
    var c := Text(content);
    RenderText(content);
    RenderOne(EL);
    RenderOne(CNL);
    if y == bar.height - 1 {
      RenderAppend([EL] + c, [CNL]);
      RenderAppend([EL], c);
    } else {
      var k := bar.height - y - 1;
      RenderOne(CUU(k));
      RenderOne(CUD(k));
      RenderAppend([CUU(k), EL] + c + [CUD(k)], [CNL]);
      RenderAppend([CUU(k), EL] + c, [CUD(k)]);
      RenderAppend([CUU(k), EL], c);
      RenderAppend([CUU(k)], [EL]);
    }
  }

  /** Only rows above the last move the cursor up or down, and they move it back by as much as up. */
  lemma BarLineMovesBalanced(bar: Bar, y: int, content: string)
    requires 0 <= y < bar.height && SingleLine(content)
    ensures var p := BarLinePayload(bar, y, content);
            (y == bar.height - 1 <==> forall i :: 0 <= i < |p| ==> !p[i].CUU? && !p[i].CUD?)
            && (y < bar.height - 1 ==> p[0] == CUU(bar.height - y - 1) && p[|p| - 2] == CUD(bar.height - y - 1))
            && p[|p| - 1] == CNL
  {
    var p := BarLinePayload(bar, y, content);
    var c := Text(content);
    forall i | 0 <= i < |c|
      ensures c[i] == CharToken(content[i])
    {
      TextAt(content, i);
    }
    if y < bar.height - 1 {
      assert p[0].CUU?;
    }
  }

  /** A terminal reads what `print` writes as its tokens exactly when the content is plain text. */
  lemma PrintReadBack(bar: Bar, content: string)
    ensures Parse(Render(PrintPayload(bar, content))) == Some(PrintPayload(bar, content)) <==> PlainText(content)
  {
    PrintBodyParts(bar, content);
    PrintWellFormed(bar.height, LineCount(content), content);
    ReadBack(PrintPayload(bar, content));
  }

  lemma PrintWellFormed(h: nat, n: nat, content: string)
    requires h >= 1 && n >= 1
    ensures AllWellFormed(Newlines(n) + [CUU(h + n - 1), IL(n)] + Text(content) + [CUD(h)] + [CNL]) <==> PlainText(content)
  {
    NewlinesWellFormed(n);
    TextWellFormed(content);
    WellFormedParts5(Newlines(n), [CUU(h + n - 1), IL(n)], Text(content), [CUD(h)], [CNL]);
  }

  /** The same for `print_bar_line`. */
  lemma BarLineReadBack(bar: Bar, y: int, content: string)
    requires 0 <= y < bar.height && SingleLine(content)
    ensures Parse(Render(BarLinePayload(bar, y, content))) == Some(BarLinePayload(bar, y, content))
            <==> PlainText(content)
  {
    BarLineWellFormed(bar, y, content);
    ReadBack(BarLinePayload(bar, y, content));
  }

  lemma BarLineWellFormed(bar: Bar, y: int, content: string)
    requires 0 <= y < bar.height && SingleLine(content)
    ensures AllWellFormed(BarLinePayload(bar, y, content)) <==> PlainText(content)
  {
    var c := Text(content);
    TextWellFormed(content);
    if y == bar.height - 1 {
      WellFormedAppend([EL], c);
      WellFormedAppend([EL] + c, [CNL]);
    } else {
      var k := bar.height - y - 1;
      WellFormedAppend([CUU(k), EL], c);
      WellFormedAppend([CUU(k), EL] + c, [CUD(k)]);
      WellFormedAppend([CUU(k), EL] + c + [CUD(k)], [CNL]);
    }
  }

  /**
   * Whatever the block does, even when a call in it fails, a session writes `init`'s
   * line breaks first and the final line break last.
   */
  lemma SessionFramed(bar: Bar, ops: seq<Op>)
    ensures var o := Session(bar, ops).output;
            |o| >= bar.height
            && o[..bar.height - 1] == InitPayload(bar)
            && o[|o| - 1] == LF
            && Render(o) == Repeat('\n', bar.height - 1) + Render(RunOps(bar, ops).output) + "\n"
  {
    var o := Session(bar, ops).output;
    var body := RunOps(bar, ops).output;
    assert o == InitPayload(bar) + body + [LF];
    assert o[..bar.height - 1] == InitPayload(bar);
    RenderAppend(InitPayload(bar) + body, [LF]);
    RenderAppend(InitPayload(bar), body);
  }

  /** A block with no calls writes `height` line breaks in all. */
  lemma EmptySessionWritesHeightNewlines(bar: Bar)
    ensures Render(Session(bar, []).output) == Repeat('\n', bar.height)
    ensures Session(bar, []).fault.None?
  {
    SessionFramed(bar, []);
    assert Render([]) == "";
    assert Repeat('\n', bar.height - 1) + "" + "\n" == Repeat('\n', bar.height);
  }

  /** A block that fails stops at the first failing call: later calls write nothing. */
  lemma {:induction false} FailureStopsBlock(bar: Bar, ops: seq<Op>, i: nat)
    requires i < |ops| && Apply(bar, ops[i]).Failure?
    requires forall j :: 0 <= j < i ==> Apply(bar, ops[j]).Success?
    ensures RunOps(bar, ops) == Outcome(RunOps(bar, ops[..i]).output, Some(Apply(bar, ops[i]).error))
    decreases i
  {
    if i > 0 {
      assert ops[1..][i - 1] == ops[i];
      FailureStopsBlock(bar, ops[1..], i - 1);
      assert ops[1..][..i - 1] == ops[..i][1..];
    }
  }
}

=== FILE: content.dfy ===
/** Text as the bar sees it: a string is shown as the lines `str.split('\n')` yields. */
module Content {

  /** No line break inside: one terminal row. */
  predicate SingleLine(s: string) {
    '\n' !in s
  }

  /** `s.count('\n')` */
  function NewlineCount(s: string): nat
    decreases |s|
  {
    if |s| == 0 then 0
    else (if s[0] == '\n' then 1 else 0) + NewlineCount(s[1..])
  }

  /** The number of rows `s` occupies when printed: one more than its line breaks. */
  function LineCount(s: string): nat {
    NewlineCount(s) + 1
  }

  /** `s.split('\n')`: the rows `s` occupies, in order. */
  function Lines(s: string): (ls: seq<string>)
    ensures |ls| == LineCount(s)
    ensures forall i :: 0 <= i < |ls| ==> SingleLine(ls[i])
    decreases |s|
  {
    if |s| == 0 then [""]
    else
      var rest := Lines(s[1..]);
      if s[0] == '\n' then [""] + rest
      else
        assert SingleLine(rest[0]);
        [[s[0]] + rest[0]] + rest[1..]
  }

  /** `'\n'.join(ls)` */
  function Join(ls: seq<string>): string
    requires |ls| > 0
    decreases |ls|
  {
    if |ls| == 1 then ls[0] else ls[0] + "\n" + Join(ls[1..])
  }

  /** A string has no line break exactly when it counts none. */
  lemma {:induction false} NoNewlineCount(s: string)
    ensures SingleLine(s) <==> NewlineCount(s) == 0
    decreases |s|
  {
    if |s| > 0 {
      NoNewlineCount(s[1..]);
      assert s == [s[0]] + s[1..];
    }
  }

  /** Splitting then joining gives back the text. */
  lemma {:induction false} JoinLines(s: string)
    ensures Join(Lines(s)) == s
    decreases |s|
  {
    if |s| > 0 {
      var rest := Lines(s[1..]);
      JoinLines(s[1..]);
      if s[0] == '\n' {
        assert Lines(s) == [""] + rest;
        assert ([""] + rest)[1..] == rest;
      } else {
        var ls := [[s[0]] + rest[0]] + rest[1..];
        assert Lines(s) == ls;
        if |rest| == 1 {
          assert Join(ls) == [s[0]] + rest[0];
        } else {
          assert ls[1..] == rest[1..];
          assert Join(rest) == rest[0] + "\n" + Join(rest[1..]);
        }
      }
      assert s == [s[0]] + s[1..];
    }
  }

  /** A line-break-free prefix joins the first line of what follows. */
  lemma {:induction false} LinesPrefix(a: string, t: string)
    requires SingleLine(a)
    ensures Lines(a + t) == [a + Lines(t)[0]] + Lines(t)[1..]
    decreases |a|
  {
    var lt := Lines(t);
    if |a| > 0 {
      assert (a + t)[0] == a[0] && a[0] != '\n';
      assert (a + t)[1..] == a[1..] + t;
      assert SingleLine(a[1..]);
      LinesPrefix(a[1..], t);
      assert [a[0]] + (a[1..] + lt[0]) == a + lt[0];
    } else {
      assert a + t == t;
      assert a + lt[0] == lt[0];
      assert lt == [lt[0]] + lt[1..];
    }
  }

  /** Joining line-break-free rows then splitting gives back the rows. */
  lemma {:induction false} LinesJoin(ls: seq<string>)
    requires |ls| > 0
    requires forall i :: 0 <= i < |ls| ==> SingleLine(ls[i])
    ensures Lines(Join(ls)) == ls
    decreases |ls|
  {
    if |ls| == 1 {
      LinesPrefix(ls[0], "");
      assert ls[0] + "" == ls[0];
    } else {
      var j := Join(ls[1..]);
      LinesJoin(ls[1..]);
      assert ("\n" + j)[1..] == j;
      assert Lines("\n" + j) == [""] + Lines(j);
      assert ls[0] + "\n" + j == ls[0] + ("\n" + j);
      LinesPrefix(ls[0], "\n" + j);
      assert ls[0] + "" == ls[0];
      assert ([""] + ls[1..])[1..] == ls[1..];
      assert ls == [ls[0]] + ls[1..];
    }
  }
}

=== FILE: cursor_next_line.dfy ===
/**
 * What `ESC [ E` does when the bar is not on the screen's last row.
 *
 * The source ends `print` and `print_bar_line` with `ESC [ E`, described there as
 * moving the cursor to the beginning of the line. In ECMA-48 (section 8.3.12) that
 * sequence is CURSOR NEXT LINE: down one row, then to the first column. On the screen's
 * last row a VT100-compatible terminal clamps the move down and only the column
 * changes, so the bar works when
 * its last row is the screen's last row. When it is not (the bar was set up on a
 * terminal with free rows below the cursor), every call leaves the cursor one row
 * lower, and the next call draws one row off. CURSOR CHARACTER ABSOLUTE (`ESC [ G`,
 * section 8.3.9) is the sequence that only returns to the first column; the payloads
 * ending with it keep the cursor on the bar's last row wherever that row is.
 */
module CursorNextLine {
  import opened Content
  import opened Ansi
  import opened Terminal
  import opened BottomBar
  import opened Behaviour

  /** `print_bar_line` as intended: the same body, then back to column 0 of the same row. */
  function BarLinePayloadFixed(bar: Bar, y: int, content: string): seq<Token>
    requires 0 <= y < bar.height && SingleLine(content)
  {
    BarLineBody(bar, y, content) + [CHA]
  }

  /** `print` as intended. */
  function PrintPayloadFixed(bar: Bar, content: string): seq<Token> {
    PrintBody(bar, content) + [CHA]
  }

  /**
   * The cursor sits at column 0 of the bar's last row and the bar's rows show `view`:
   * what every call expects to find and must leave behind.
   */
  predicate Anchored(s: Screen, view: seq<string>) {
    s.Valid() && s.col == 0 && |view| <= s.row + 1 && s.rows[s.row + 1 - |view|..s.row + 1] == view
  }

  // ---------------------------------------------------------------- bar lines

  /** As written: above the screen's last row, `print_bar_line` leaves the cursor one row lower. */
  lemma BarLineDrifts(bar: Bar, s: Screen, y: int, content: string)
    requires s.Valid() && s.col == 0 && bar.height - 1 <= s.row < |s.rows| - 1
    requires 0 <= y < bar.height && SingleLine(content)
    ensures Run(s, BarLinePayload(bar, y, content)) ==
            Screen(s.rows[s.row - bar.height + 1 + y := content], s.row + 1, 0)
  {
    BarLineBodyFrom(bar, s, y, content);
    RunOne(Screen(s.rows[s.row - bar.height + 1 + y := content], s.row, |content|), CNL);
    RunSplit(s, BarLinePayload(bar, y, content), BarLineBody(bar, y, content), [CNL],
      Screen(s.rows[s.row - bar.height + 1 + y := content], s.row, |content|),
      Screen(s.rows[s.row - bar.height + 1 + y := content], s.row + 1, 0));
  }

  /**
   * The smallest case: a one-row bar set up at the top of a blank three-row screen.
   * Writing "X" then "Y" to its only row leaves both on screen, on two different rows,
   * where the second call was meant to overwrite the first.
   */
  lemma BarLineDriftExample()
    ensures Run(Run(Screen(["", "", ""], 0, 0), BarLinePayload(Bar(1), 0, "X")), BarLinePayload(Bar(1), 0, "Y"))
            == Screen(["X", "Y", ""], 2, 0)
  {
    BarLineDrifts(Bar(1), Screen(["", "", ""], 0, 0), 0, "X");
    assert ["", "", ""][0 := "X"] == ["X", "", ""];
    BarLineDrifts(Bar(1), Screen(["X", "", ""], 1, 0), 0, "Y");
    assert ["X", "", ""][1 := "Y"] == ["X", "Y", ""];
  }

  /** Corrected: from any row the bar can end on, only bar row `y` changes and the cursor stays. */
  lemma BarLineFixedFrom(bar: Bar, s: Screen, y: int, content: string)
    requires s.Valid() && s.col == 0 && s.row >= bar.height - 1
    requires 0 <= y < bar.height && SingleLine(content)
    ensures Run(s, BarLinePayloadFixed(bar, y, content)) ==
            Screen(s.rows[s.row - bar.height + 1 + y := content], s.row, 0)
  {
    BarLineBodyFrom(bar, s, y, content);
    RunOne(Screen(s.rows[s.row - bar.height + 1 + y := content], s.row, |content|), CHA);
    RunSplit(s, BarLinePayloadFixed(bar, y, content), BarLineBody(bar, y, content), [CHA],
      Screen(s.rows[s.row - bar.height + 1 + y := content], s.row, |content|),
      Screen(s.rows[s.row - bar.height + 1 + y := content], s.row, 0));
  }

  /** Corrected: the bar stays anchored wherever it is, and shows row `y` replaced. */
  lemma BarLineFixedKeepsAnchor(bar: Bar, s: Screen, view: seq<string>, y: int, content: string)
    requires Anchored(s, view) && |view| == bar.height
    requires 0 <= y < bar.height && SingleLine(content)
    ensures Anchored(Run(s, BarLinePayloadFixed(bar, y, content)), view[y := content])
  {
    BarLineFixedFrom(bar, s, y, content);
    UpdateInView(s.rows, s.row + 1 - bar.height, bar.height, y, content);
  }

  lemma UpdateInView(rows: seq<string>, top: nat, h: nat, y: nat, content: string)
    requires y < h && top + h <= |rows|
    ensures rows[top + y := content][top..top + h] == rows[top..top + h][y := content]
  {
  }

  /** As written: the same call breaks the anchor whenever the bar is above the screen's last row. */
  lemma BarLineLosesAnchor(bar: Bar, s: Screen, view: seq<string>, y: int, content: string)
    requires Anchored(s, view) && |view| == bar.height && s.row < |s.rows| - 1
    requires 0 <= y < bar.height && SingleLine(content)
    ensures Run(s, BarLinePayload(bar, y, content)).row == s.row + 1
    ensures Run(s, BarLinePayloadFixed(bar, y, content)).row == s.row
  {
    BarLineDrifts(bar, s, y, content);
    BarLineFixedFrom(bar, s, y, content);
  }

  // ---------------------------------------------------------------- prints

  /** With room below: down `n`, up to the bar's top row `r`, `n` blank rows inserted there. */
  lemma MakeRoomFrom(s: Screen, h: nat, n: nat, r: nat)
    requires s.Valid() && h >= 1 && n >= 1 && s.row == r + h - 1 && s.row + n < |s.rows|
    ensures Run(s, Newlines(n) + [CUU(h + n - 1), IL(n)]) ==
            Screen(s.rows[..r] + Blank(n) + s.rows[r..|s.rows| - n], r, 0)
  {
    DescendFeeds(s, n);
    UpAndInsert(Screen(s.rows, s.row + n, 0), h + n - 1, r, n);
    RunSplit(s, Newlines(n) + [CUU(h + n - 1), IL(n)], Newlines(n), [CUU(h + n - 1), IL(n)], Screen(s.rows, s.row + n, 0),
      Screen(s.rows[..r] + Blank(n) + s.rows[r..|s.rows| - n], r, 0));
  }

  lemma WriteAtRow(rows: seq<string>, n: nat, r: nat, content: string, room: Screen, written: Screen)
    requires n == LineCount(content) && r + n <= |rows|
    requires room == Screen(rows[..r] + Blank(n) + rows[r..|rows| - n], r, 0)
    requires written == Screen(rows[..r] + Lines(content) + rows[r..|rows| - n], r + n - 1, |LastLine(content)|)
    ensures room.Valid() && Run(room, Text(content)) == written
  {
    WriteOverBlanks(rows[..r], content, rows[r..|rows| - n]);
  }

  /**
   * The shape of `print` with room below the bar, the bar's top row being `r`: make room
   * there, write something that fills it with `mid`, then go down `h` rows.
   */
  lemma AroundBarFrom(s: Screen, h: nat, n: nat, r: nat, write: seq<Token>, mid: seq<string>, last: nat,
                      room: Screen, written: Screen)
    requires s.Valid() && h >= 1 && n >= 1 && s.row == r + h - 1 && s.row + n < |s.rows|
    requires room == Screen(s.rows[..r] + Blank(n) + s.rows[r..|s.rows| - n], r, 0)
    requires written == Screen(s.rows[..r] + mid + s.rows[r..|s.rows| - n], r + n - 1, last)
    requires room.Valid() && Run(room, write) == written
    ensures Run(s, Newlines(n) + [CUU(h + n - 1), IL(n)] + write + [CUD(h)]) ==
            Screen(s.rows[..r] + mid + s.rows[r..|s.rows| - n], s.row + n, last)
  {
    MakeRoomFrom(s, h, n, r);
    Down(written, h, s.row + n);
    RunSplit3(s, Newlines(n) + [CUU(h + n - 1), IL(n)] + write + [CUD(h)],
      Newlines(n) + [CUU(h + n - 1), IL(n)], write, [CUD(h)],
      room, written, Screen(s.rows[..r] + mid + s.rows[r..|s.rows| - n], s.row + n, last));
  }

  /**
   * `print`'s body with room below the bar, the bar's top row being `r`: the content's
   * lines take the bar's old place, the bar moves down `n` rows and the cursor with it.
   */
  lemma PrintRunsFrom(s: Screen, h: nat, n: nat, r: nat, content: string)
    requires s.Valid() && h >= 1 && n == LineCount(content)
    requires s.row == r + h - 1 && s.row + n < |s.rows|
    ensures Run(s, Newlines(n) + [CUU(h + n - 1), IL(n)] + Text(content) + [CUD(h)]) ==
            Screen(s.rows[..r] + Lines(content) + s.rows[r..|s.rows| - n], s.row + n, |LastLine(content)|)
  {
    var room := Screen(s.rows[..r] + Blank(n) + s.rows[r..|s.rows| - n], r, 0);
    var written := Screen(s.rows[..r] + Lines(content) + s.rows[r..|s.rows| - n], r + n - 1, |LastLine(content)|);
    WriteAtRow(s.rows, n, r, content, room, written);
    AroundBarFrom(s, h, n, r, Text(content), Lines(content), |LastLine(content)|, room, written);
  }

  lemma PrintBodyFrom(bar: Bar, s: Screen, content: string)
    requires s.Valid() && s.col == 0 && s.row >= bar.height - 1 && s.row + LineCount(content) < |s.rows|
    ensures Run(s, PrintBody(bar, content)) ==
            Screen(s.rows[..s.row + 1 - bar.height] + Lines(content) + s.rows[s.row + 1 - bar.height..|s.rows| - LineCount(content)],
                   s.row + LineCount(content), |LastLine(content)|)
  {
    PrintRunsFrom(s, bar.height, LineCount(content), s.row + 1 - bar.height, content);
    PrintBodyParts(bar, content);
  }

  /**
   * As written: with room below, `print` pushes the bar down by the content's lines but
   * leaves the cursor one row below the bar's new last row.
   */
  lemma PrintDrifts(bar: Bar, s: Screen, content: string)
    requires s.Valid() && s.col == 0 && s.row >= bar.height - 1 && s.row + LineCount(content) + 1 < |s.rows|
    ensures Run(s, PrintPayload(bar, content)) ==
            Screen(s.rows[..s.row + 1 - bar.height] + Lines(content) + s.rows[s.row + 1 - bar.height..|s.rows| - LineCount(content)],
                   s.row + LineCount(content) + 1, 0)
  {
    var rows := s.rows[..s.row + 1 - bar.height] + Lines(content) + s.rows[s.row + 1 - bar.height..|s.rows| - LineCount(content)];
    PrintBodyFrom(bar, s, content);
    RunOne(Screen(rows, s.row + LineCount(content), |LastLine(content)|), CNL);
    RunSplit(s, PrintPayload(bar, content), PrintBody(bar, content), [CNL],
      Screen(rows, s.row + LineCount(content), |LastLine(content)|), Screen(rows, s.row + LineCount(content) + 1, 0));
  }

  /** Corrected: with room below, `print` moves the bar down and the cursor stays on its last row. */
  lemma PrintFixedFrom(bar: Bar, s: Screen, content: string)
    requires s.Valid() && s.col == 0 && s.row >= bar.height - 1 && s.row + LineCount(content) < |s.rows|
    ensures Run(s, PrintPayloadFixed(bar, content)) ==
            Screen(s.rows[..s.row + 1 - bar.height] + Lines(content) + s.rows[s.row + 1 - bar.height..|s.rows| - LineCount(content)],
                   s.row + LineCount(content), 0)
  {
    PrintFixedFromWith(bar, s, content, bar.height, LineCount(content));
  }

  /**
   * `PrintFixedFrom` with the bar's height and the line count named by the caller; it
   * adds no fact and exists only to keep the caller's proof small.
   */
  lemma PrintFixedFromWith(bar: Bar, s: Screen, content: string, h: nat, n: nat)
    requires h == bar.height && n == LineCount(content)
    requires s.Valid() && s.col == 0 && h <= s.row + 1 && s.row + n < |s.rows|
    ensures Run(s, PrintPayloadFixed(bar, content)) ==
            Screen(s.rows[..s.row + 1 - h] + Lines(content) + s.rows[s.row + 1 - h..|s.rows| - n], s.row + n, 0)
  {
    var body := Newlines(n) + [CUU(h + n - 1), IL(n)] + Text(content) + [CUD(h)];
    FixedPayloadParts(bar, content, h, n, body);
    FixedBodyRun(s, content, h, n, body, PrintPayloadFixed(bar, content));
  }

  /** The corrected `print`'s tokens, spelled out, run from the bar's last row. */
  lemma FixedBodyRun(s: Screen, content: string, h: nat, n: nat, body: seq<Token>, ts: seq<Token>)
    requires s.Valid() && s.col == 0 && h >= 1 && n == LineCount(content) && h <= s.row + 1 && s.row + n < |s.rows|
    requires body == Newlines(n) + [CUU(h + n - 1), IL(n)] + Text(content) + [CUD(h)] && ts == body + [CHA]
    ensures Run(s, ts) == Screen(s.rows[..s.row + 1 - h] + Lines(content) + s.rows[s.row + 1 - h..|s.rows| - n], s.row + n, 0)
  {
    var rows := s.rows[..s.row + 1 - h] + Lines(content) + s.rows[s.row + 1 - h..|s.rows| - n];
    PrintRunsFrom(s, h, n, s.row + 1 - h, content);
    EndsWithCha(s, ts, body, Screen(rows, s.row + n, |LastLine(content)|), Screen(rows, s.row + n, 0));
  }

  /** The corrected `print` payload spelled out in the bar's height and the line count. */
  lemma FixedPayloadParts(bar: Bar, content: string, h: nat, n: nat, body: seq<Token>)
    requires h == bar.height && n == LineCount(content)
    requires body == Newlines(n) + [CUU(h + n - 1), IL(n)] + Text(content) + [CUD(h)]
    ensures PrintPayloadFixed(bar, content) == body + [CHA]
  {
    PrintBodyParts(bar, content);
  }

  /** A run that ends with `ESC[G` ends at column 0 of the row its body ends on. */
  lemma EndsWithCha(s: Screen, ts: seq<Token>, body: seq<Token>, u: Screen, t: Screen)
    requires s.Valid() && ts == body + [CHA] && Run(s, body) == u && t == u.(col := 0)
    ensures Run(s, ts) == t
  {
    RunOne(u, CHA);
    RunSplit(s, ts, body, [CHA], u, t);
  }

  /**
   * Corrected: wherever the bar is, when the screen has room for it and the printed
   * lines, the bar keeps what it showed and stays anchored. With room below it moves
   * down by the content's lines; otherwise the screen scrolls and it ends at the bottom.
   */
  lemma PrintFixedKeepsAnchor(bar: Bar, s: Screen, view: seq<string>, content: string)
    requires Anchored(s, view) && |view| == bar.height && bar.height + LineCount(content) <= |s.rows|
    ensures Anchored(Run(s, PrintPayloadFixed(bar, content)), view)
  {
    if s.row + LineCount(content) < |s.rows| {
      PrintFixedKeepsAnchorBelow(bar, s, view, content);
    } else {
      PrintFixedKeepsAnchorScrolled(bar, s, view, content);
    }
  }

  /** The bar moves down into the free rows below it. */
  lemma PrintFixedKeepsAnchorBelow(bar: Bar, s: Screen, view: seq<string>, content: string)
    requires Anchored(s, view) && |view| == bar.height && s.row + LineCount(content) < |s.rows|
    ensures Anchored(Run(s, PrintPayloadFixed(bar, content)), view)
  {
    AnchorBelowWith(bar, s, view, content, bar.height, LineCount(content));
  }

  /**
   * `PrintFixedKeepsAnchorBelow` with the bar's height and the line count named by the
   * caller; it adds no fact and exists only to keep the caller's proof small.
   */
  lemma AnchorBelowWith(bar: Bar, s: Screen, view: seq<string>, content: string, h: nat, n: nat)
    requires h == bar.height && n == LineCount(content)
    requires Anchored(s, view) && |view| == h && s.row + n < |s.rows|
    ensures Anchored(Run(s, PrintPayloadFixed(bar, content)), view)
  {
    var t := Screen(s.rows[..s.row + 1 - h] + Lines(content) + s.rows[s.row + 1 - h..|s.rows| - n], s.row + n, 0);
    PrintFixedFromWith(bar, s, content, h, n);
    ShiftedAnchored(s, view, h, n, Lines(content), t);
  }

  /** Lines put in at the top of an anchored bar leave it anchored, `n` rows lower. */
  lemma ShiftedAnchored(s: Screen, view: seq<string>, h: nat, n: nat, ls: seq<string>, t: Screen)
    requires Anchored(s, view) && |view| == h && |ls| == n && s.row + n < |s.rows|
    requires t == Screen(s.rows[..s.row + 1 - h] + ls + s.rows[s.row + 1 - h..|s.rows| - n], s.row + n, 0)
    ensures Anchored(t, view)
  {
    BarMovedDown(s.rows, s.row, h, n, ls, t.rows);
  }

  /** The screen scrolls and the bar ends at the bottom. */
  lemma PrintFixedKeepsAnchorScrolled(bar: Bar, s: Screen, view: seq<string>, content: string)
    requires Anchored(s, view) && |view| == bar.height
    requires |s.rows| <= s.row + LineCount(content) && bar.height + LineCount(content) <= |s.rows|
    ensures Anchored(Run(s, PrintPayloadFixed(bar, content)), view)
  {
    var above := s.rows[s.row + LineCount(content) + 1 - |s.rows|..s.row + 1 - bar.height];
    PrintFixedScrolls(bar, s, view, content);
    TailAnchored(above, Lines(content), view, Run(s, PrintPayloadFixed(bar, content)));
  }

  /** A screen whose last rows show `view`, with the cursor at column 0 of its last row, is anchored at `view`. */
  lemma TailAnchored(above: seq<string>, ls: seq<string>, view: seq<string>, t: Screen)
    requires |above| + |ls| + |view| >= 1 && t == Screen(above + ls + view, |above| + |ls| + |view| - 1, 0)
    ensures Anchored(t, view)
  {
    assert t.rows[|above| + |ls|..] == view;
  }

  /**
   * Corrected, with fewer free rows below the bar than lines to print (the resting
   * position included): the screen scrolls by the difference, the lines go in just
   * above the bar, and the bar ends on the screen's last rows with the cursor at
   * column 0 of its last row.
   */
  lemma PrintFixedScrolls(bar: Bar, s: Screen, view: seq<string>, content: string)
    requires Anchored(s, view) && |view| == bar.height
    requires |s.rows| <= s.row + LineCount(content) && bar.height + LineCount(content) <= |s.rows|
    ensures Run(s, PrintPayloadFixed(bar, content)) ==
            Screen(s.rows[s.row + LineCount(content) + 1 - |s.rows|..s.row + 1 - bar.height] + Lines(content) + view,
                   |s.rows| - 1, 0)
  {
    var n, h := LineCount(content), bar.height;
    var m := s.row + n + 1 - |s.rows|;
    assert view == s.rows[s.row + 1 - h..s.row + 1];
    var above := s.rows[m..s.row + 1 - h];
    ScrolledPrintTo(bar, s, content, h, n, m, above, view);
    assert above == s.rows[s.row + LineCount(content) + 1 - |s.rows|..s.row + 1 - bar.height];
  }

  /**
   * `PrintFixedScrolls` with every quantity it needs named by the caller; it adds no
   * fact and exists only to keep the caller's proof small.
   */
  lemma ScrolledPrintTo(bar: Bar, s: Screen, content: string, h: nat, n: nat, m: nat, above: seq<string>, view: seq<string>)
    requires s.Valid() && h == bar.height && n == LineCount(content) && h <= s.row + 1
    requires m == s.row + n + 1 - |s.rows| && h + n <= |s.rows| <= s.row + n
    requires view == s.rows[s.row + 1 - h..s.row + 1] && above == s.rows[m..s.row + 1 - h]
    ensures Run(s, PrintPayloadFixed(bar, content)) == Screen(above + Lines(content) + view, |s.rows| - 1, 0)
  {
    var v := Screen(above + Blank(n) + view, |s.rows| - h - n, 0);
    var t := Screen(above + Lines(content) + view, |s.rows| - 1, 0);
    ScrollThenInsert(s, h, n, m, above, view, Screen(s.rows[m..] + Blank(m), |s.rows| - 1, 0), v);
    WriteAndSettle(|s.rows|, h, n, content, above, view, v, t);
    PrintFixedJoined(bar, content, h, n, s, v, t);
  }

  /** The corrected `print` run as the part that makes room and then the part that writes and returns. */
  lemma PrintFixedJoined(bar: Bar, content: string, h: nat, n: nat, s: Screen, v: Screen, t: Screen)
    requires s.Valid() && h == bar.height && n == LineCount(content)
    requires Run(s, Newlines(n) + [CUU(h + n - 1), IL(n)]) == v
    requires Run(v, Text(content) + [CUD(h)] + [CHA]) == t
    ensures Run(s, PrintPayloadFixed(bar, content)) == t
  {
    PrintBodyParts(bar, content);
    assert PrintPayloadFixed(bar, content) == Newlines(n) + [CUU(h + n - 1), IL(n)] + (Text(content) + [CUD(h)] + [CHA]);
    RunSplit(s, PrintPayloadFixed(bar, content), Newlines(n) + [CUU(h + n - 1), IL(n)], Text(content) + [CUD(h)] + [CHA], v, t);
  }

  /**
   * The rest of the corrected `print` once the blank rows are in: the content fills
   * them, the cursor goes down to the bar's last row and back to column 0.
   */
  lemma WriteAndSettle(height: nat, h: nat, n: nat, content: string, above: seq<string>, view: seq<string>, v: Screen, t: Screen)
    requires n == LineCount(content) && |view| == h && |above| + n + h == height
    requires v == Screen(above + Blank(n) + view, |above|, 0)
    requires t == Screen(above + Lines(content) + view, height - 1, 0)
    ensures Run(v, Text(content) + [CUD(h)] + [CHA]) == t
  {
    var w := Screen(above + Lines(content) + view, height - h - 1, |LastLine(content)|);
    var x := Screen(above + Lines(content) + view, height - 1, |LastLine(content)|);
    WriteOverBlanks(above, content, view);
    Down(w, h, height - 1);
    RunOne(x, CHA);
    RunSplit3(v, Text(content) + [CUD(h)] + [CHA], Text(content), [CUD(h)], [CHA], w, x, t);
  }

  /**
   * The first part of `PrintFixedScrolls`: the line breaks take the cursor to the last
   * row and scroll by `m` more, and the cursor goes up to the bar's top row, where `n`
   * blank rows go in.
   */
  lemma ScrollThenInsert(s: Screen, h: nat, n: nat, m: nat, above: seq<string>, view: seq<string>, u: Screen, v: Screen)
    requires s.Valid() && h >= 1 && n >= 1 && h <= s.row + 1
    requires m == s.row + n + 1 - |s.rows| && h + n <= |s.rows| <= s.row + n
    requires view == s.rows[s.row + 1 - h..s.row + 1] && above == s.rows[m..s.row + 1 - h]
    requires u == Screen(s.rows[m..] + Blank(m), |s.rows| - 1, 0)
    requires v == Screen(above + Blank(n) + view, |s.rows| - h - n, 0)
    ensures Run(s, Newlines(n) + [CUU(h + n - 1), IL(n)]) == v
  {
    ScrollPastBar(s, n, m, u);
    InsertAndJoin(s, h, n, m, above, view, u, v);
  }

  /** The insertion after the line breaks, joined to them. */
  lemma InsertAndJoin(s: Screen, h: nat, n: nat, m: nat, above: seq<string>, view: seq<string>, u: Screen, v: Screen)
    requires s.Valid() && h >= 1 && n >= 1 && s.row + 1 == |s.rows| - n + m && m + h <= s.row + 1 && h + n <= |s.rows|
    requires view == s.rows[s.row + 1 - h..s.row + 1] && above == s.rows[m..s.row + 1 - h]
    requires u == Screen(s.rows[m..] + Blank(m), |s.rows| - 1, 0) && Run(s, Newlines(n)) == u
    requires v == Screen(above + Blank(n) + view, |s.rows| - h - n, 0)
    ensures Run(s, Newlines(n) + [CUU(h + n - 1), IL(n)]) == v
  {
    InsertAboveScrolledBar(s.rows, h, n, m, s.row + 1, above, view, u, v);
    MakeRoomJoined(s, h, n, u, v);
  }

  /** The line breaks and the insertion, run one after the other. */
  lemma MakeRoomJoined(s: Screen, h: nat, n: nat, u: Screen, v: Screen)
    requires s.Valid() && h >= 1 && n >= 1
    requires Run(s, Newlines(n)) == u && Run(u, [CUU(h + n - 1), IL(n)]) == v
    ensures Run(s, Newlines(n) + [CUU(h + n - 1), IL(n)]) == v
  {
    RunSplit(s, Newlines(n) + [CUU(h + n - 1), IL(n)], Newlines(n), [CUU(h + n - 1), IL(n)], u, v);
  }

  /** The line breaks: down to the last row, then `m` rows of scrolling. */
  lemma ScrollPastBar(s: Screen, n: nat, m: nat, u: Screen)
    requires s.Valid() && n >= 1 && m >= 1
    requires m == s.row + n + 1 - |s.rows| && n <= |s.rows|
    requires u == Screen(s.rows[m..] + Blank(m), |s.rows| - 1, 0)
    ensures Run(s, Newlines(n)) == u
  {
    FeedsPastBottom(s, n);
  }

  /** Up to the top row of the scrolled bar, and `n` blank rows inserted there. */
  lemma InsertAboveScrolledBar(rows: seq<string>, h: nat, n: nat, m: nat, top: nat, above: seq<string>, view: seq<string>, u: Screen, v: Screen)
    requires h >= 1 && n >= 1 && top == |rows| - n + m && m + h <= top <= |rows| && h + n <= |rows|
    requires view == rows[top - h..top] && above == rows[m..top - h]
    requires u == Screen(rows[m..] + Blank(m), |rows| - 1, 0)
    requires v == Screen(above + Blank(n) + view, |rows| - h - n, 0)
    ensures Run(u, [CUU(h + n - 1), IL(n)]) == v
  {
    UpAndInsert(u, h + n - 1, |rows| - h - n, n);
    ScrolledSlice(rows, m, m, top - h);
    ScrolledSlice(rows, m, top - h, top);
    assert u.rows[..|rows| - h - n] == above;
    assert u.rows[|rows| - h - n..|u.rows| - n] == view;
  }

  /** Rows `lo..hi` of a screen scrolled up by `m` rows are found `m` rows higher. */
  lemma ScrolledSlice(rows: seq<string>, m: nat, lo: nat, hi: nat)
    requires m <= lo <= hi <= |rows|
    ensures (rows[m..] + Blank(m))[lo - m..hi - m] == rows[lo..hi]
  {
    assert (rows[m..] + Blank(m))[lo - m..hi - m] == rows[m..][lo - m..hi - m];
  }

  /**
   * Lines inserted at the top row of a bar whose last row is `r`: the bar's rows
   * reappear `n` rows lower.
   */
  lemma BarMovedDown(rows: seq<string>, r: nat, h: nat, n: nat, ls: seq<string>, all: seq<string>)
    requires |ls| == n && h <= r + 1 && r + 1 + n <= |rows|
    requires all == rows[..r + 1 - h] + ls + rows[r + 1 - h..|rows| - n]
    ensures all[r + n + 1 - h..r + n + 1] == rows[r + 1 - h..r + 1]
  {
    assert all[r + 1 - h + n..] == rows[r + 1 - h..|rows| - n];
    assert rows[r + 1 - h..|rows| - n][..h] == rows[r + 1 - h..r + 1];
  }

  // ---------------------------------------------------------------- agreement

  /** From the resting position the corrected payloads do exactly what the source's do. */
  lemma FixedAgreesAtBottom(bar: Bar, s: Screen, y: int, content: string)
    requires s.Resting() && bar.height <= |s.rows|
    requires 0 <= y < bar.height && SingleLine(content)
    ensures Run(s, BarLinePayloadFixed(bar, y, content)) == Run(s, BarLinePayload(bar, y, content))
    ensures Run(s, PrintPayloadFixed(bar, content)) == Run(s, PrintPayload(bar, content))
  {
    BarLineAgreesAtBottom(bar, s, y, content);
    PrintAgreesAtBottom(bar, s, content);
  }

  /** The `print_bar_line` half of the agreement. */
  lemma BarLineAgreesAtBottom(bar: Bar, s: Screen, y: int, content: string)
    requires s.Resting() && bar.height <= |s.rows|
    requires 0 <= y < bar.height && SingleLine(content)
    ensures Run(s, BarLinePayloadFixed(bar, y, content)) == Run(s, BarLinePayload(bar, y, content))
  {
    BarLineFixedFrom(bar, s, y, content);
    BarLineRewritesRow(bar, s, y, content);
  }

  /**
   * From rest, whatever the content and even when it overflows the screen, everything
   * `print` writes before its last control function ends on the screen's last row:
   * the closing cursor-down stops there.
   */
  lemma PrintBodyEndsOnLastRow(bar: Bar, s: Screen, content: string)
    requires s.Resting()
    ensures Run(s, PrintBody(bar, content)).row == |s.rows| - 1
  {
    PrintBodyParts(bar, content);
    BodyEndsOnLastRow(s, bar.height, LineCount(content), content, Newlines(LineCount(content)) + [CUU(bar.height + LineCount(content) - 1), IL(LineCount(content))]);
  }

  /**
   * `PrintBodyEndsOnLastRow` with the height, the line count and the leading tokens
   * named; it adds no fact and exists only to keep the caller's proof small.
   */
  lemma BodyEndsOnLastRow(s: Screen, h: nat, n: nat, content: string, lead: seq<Token>)
    requires s.Resting() && h >= 1 && n == LineCount(content) && lead == Newlines(n) + [CUU(h + n - 1), IL(n)]
    ensures Run(s, lead + Text(content) + [CUD(h)]).row == |s.rows| - 1
  {
    RunAppend3(s, lead, Text(content), [CUD(h)]);
    LeadRow(s, h, n);
    TextRow(Run(s, lead), content);
    RunOne(Run(Run(s, lead), Text(content)), CUD(h));
  }

  /** From rest, `print`'s line breaks and cursor-up land on the bar's top row, or on row 0 when that is off screen. */
  lemma LeadRow(s: Screen, h: nat, n: nat)
    requires s.Resting() && h >= 1 && n >= 1
    ensures Run(s, Newlines(n) + [CUU(h + n - 1), IL(n)]).row == if h + n <= |s.rows| then |s.rows| - h - n else 0
  {
    var s1 := Run(s, Newlines(n));
    FeedsRow(s, n);
    RunAppend(s, Newlines(n), [CUU(h + n - 1), IL(n)]);
    assert [CUU(h + n - 1), IL(n)][1..] == [IL(n)];
    RunOne(Step(s1, CUU(h + n - 1)), IL(n));
  }

  /** The `print` half of the agreement, for every content: on the last row `ESC [ E` and `ESC [ G` coincide. */
  lemma PrintAgreesAtBottom(bar: Bar, s: Screen, content: string)
    requires s.Resting()
    ensures Run(s, PrintPayloadFixed(bar, content)) == Run(s, PrintPayload(bar, content))
  {
    var t := Run(s, PrintBody(bar, content));
    PrintBodyEndsOnLastRow(bar, s, content);
    RunAppend(s, PrintBody(bar, content), [CNL]);
    RunAppend(s, PrintBody(bar, content), [CHA]);
    RunOne(t, CNL);
    RunOne(t, CHA);
  }

  lemma PrintFixedAtBottom(bar: Bar, s: Screen, content: string)
    requires s.Resting() && |s.rows| >= bar.height + LineCount(content)
    ensures Run(s, PrintPayloadFixed(bar, content)) ==
            Screen(s.rows[LineCount(content)..|s.rows| - bar.height] + Lines(content) + s.rows[|s.rows| - bar.height..],
                   |s.rows| - 1, 0)
  {
    var rows := s.rows[LineCount(content)..|s.rows| - bar.height] + Lines(content) + s.rows[|s.rows| - bar.height..];
    PrintBodyAtBottom(bar, s, content);
    RunOne(Screen(rows, |s.rows| - 1, |LastLine(content)|), CHA);
    RunSplit(s, PrintPayloadFixed(bar, content), PrintBody(bar, content), [CHA],
      Screen(rows, |s.rows| - 1, |LastLine(content)|), Screen(rows, |s.rows| - 1, 0));
  }
}

=== FILE: terminal.dfy ===
/**
 * A virtual terminal for the tokens the bar writes: a fixed number of rows, each held
 * as the text shown on it, and a cursor. Every line is assumed to fit on one row.
 */
module Terminal {
  import opened Content
  import opened Ansi

  datatype Screen = Screen(rows: seq<string>, row: nat, col: nat) {

    predicate Valid() {
      |rows| > 0 && row < |rows|
    }

    /** Cursor at column 0 of the screen's last row: where the bar keeps it. */
    predicate Resting() {
      Valid() && row == |rows| - 1 && col == 0
    }
  }

  /** `k` empty rows. */
  function Blank(k: nat): (r: seq<string>)
    ensures |r| == k && forall i :: 0 <= i < k ==> r[i] == ""
  {
    seq(k, _ => "")
  }

  /** `line` with `c` shown at column `col`, padded with spaces when the line is shorter. */
  function Put(line: string, col: nat, c: char): (r: string)
    ensures |r| == if col < |line| then |line| else col + 1
    ensures r[col] == c
    ensures forall i :: 0 <= i < |line| && i != col ==> r[i] == line[i]
    ensures forall i :: |line| <= i < col ==> r[i] == ' '
  {
    if col < |line| then line[col := c] else line + Repeat(' ', col - |line|) + [c]
  }

  /** What a terminal does with one token. */
  function Step(s: Screen, t: Token): (r: Screen)
    requires s.Valid()
    ensures r.Valid() && |r.rows| == |s.rows|
  {
    var last := |s.rows| - 1;
    match t
    case Glyph(c) =>
      s.(rows := s.rows[s.row := Put(s.rows[s.row], s.col, c)], col := s.col + 1)
    case LF =>
      // a line break on the last row scrolls the screen up by one
      if s.row == last then Screen(s.rows[1..] + [""], last, 0)
      else Screen(s.rows, s.row + 1, 0)
    case CUU(n) =>
      s.(row := if n <= s.row then s.row - n else 0)
    case CUD(n) =>
      s.(row := if s.row + n <= last then s.row + n else last)
    case IL(n) =>
      // rows pushed past the last row are lost; the cursor goes to the line home position
      Screen((s.rows[..s.row] + Blank(n) + s.rows[s.row..])[..|s.rows|], s.row, 0)
    case EL =>
      s.(rows := s.rows[s.row := ""])
    case CNL =>
      Screen(s.rows, if s.row < last then s.row + 1 else last, 0)
    case CHA =>
      s.(col := 0)
  }

  /** What a terminal does with a token sequence. */
  function Run(s: Screen, ts: seq<Token>): (r: Screen)
    requires s.Valid()
    ensures r.Valid() && |r.rows| == |s.rows|
    decreases |ts|
  {
    if |ts| == 0 then s else Run(Step(s, ts[0]), ts[1..])
  }

  lemma {:induction false} RunAppend(s: Screen, a: seq<Token>, b: seq<Token>)
    requires s.Valid()
    ensures Run(s, a + b) == Run(Run(s, a), b)
    decreases |a|
  {
    if |a| > 0 {
      assert (a + b)[0] == a[0];
      assert (a + b)[1..] == a[1..] + b;
      RunAppend(Step(s, a[0]), a[1..], b);
    } else {
      assert a + b == b;
    }
  }

  /** Three pieces run one after another. */
  lemma RunAppend3(s: Screen, a: seq<Token>, b: seq<Token>, c: seq<Token>)
    requires s.Valid()
    ensures Run(s, a + b + c) == Run(Run(Run(s, a), b), c)
  {
    RunAppend(s, a + b, c);
    RunAppend(s, a, b);
  }

  /** A run split at a known midpoint. */
  lemma RunSplit(s: Screen, ts: seq<Token>, a: seq<Token>, b: seq<Token>, s1: Screen, s2: Screen)
    requires s.Valid() && s1.Valid() && ts == a + b && Run(s, a) == s1 && Run(s1, b) == s2
    ensures Run(s, ts) == s2
  {
    RunAppend(s, a, b);
  }

  /** A run split at two known midpoints. */
  lemma RunSplit3(s: Screen, ts: seq<Token>, a: seq<Token>, b: seq<Token>, c: seq<Token>,
                  s1: Screen, s2: Screen, s3: Screen)
    requires s.Valid() && s1.Valid() && s2.Valid() && ts == a + b + c
    requires Run(s, a) == s1 && Run(s1, b) == s2 && Run(s2, c) == s3
    ensures Run(s, ts) == s3
  {
    RunAppend(s, a + b, c);
    RunAppend(s, a, b);
  }

  lemma RunOne(s: Screen, t: Token)
    requires s.Valid()
    ensures Run(s, [t]) == Step(s, t)
  {
    assert [t][1..] == [];
  }

  /** `ESC [ E` on the screen's last row only returns to column 0. */
  lemma NextLineAtBottom(s: Screen)
    requires s.Valid() && s.row == |s.rows| - 1
    ensures Run(s, [CNL]) == Screen(s.rows, s.row, 0)
  {
    RunOne(s, CNL);
  }

  /** Cursor up `k` rows, with room above: the cursor lands on row `r`. */
  lemma Up(s: Screen, k: nat, r: nat)
    requires s.Valid() && s.row == r + k
    ensures Run(s, [CUU(k)]) == Screen(s.rows, r, s.col)
  {
    RunOne(s, CUU(k));
  }

  /** Cursor down `k` rows, with room below: the cursor lands on row `r`. */
  lemma Down(s: Screen, k: nat, r: nat)
    requires s.Valid() && s.row + k == r < |s.rows|
    ensures Run(s, [CUD(k)]) == Screen(s.rows, r, s.col)
  {
    RunOne(s, CUD(k));
  }

  /** Line breaks on the last row scroll the screen: `k` blank rows come in at the bottom. */
  lemma {:induction false} ScrollFeeds(s: Screen, k: nat)
    requires s.Valid() && s.row == |s.rows| - 1 && 0 < k <= |s.rows|
    ensures Run(s, Newlines(k)) == Screen(s.rows[k..] + Blank(k), |s.rows| - 1, 0)
    decreases k
  {
    var s1 := Step(s, LF);
    assert s1 == Screen(s.rows[1..] + [""], |s.rows| - 1, 0);
    assert Newlines(k)[1..] == Newlines(k - 1);
    if k == 1 {
      assert Run(s1, []) == s1;
      assert s.rows[1..] + [""] == s.rows[k..] + Blank(k);
    } else {
      ScrollFeeds(s1, k - 1);
      assert (s.rows[1..] + [""])[k - 1..] + Blank(k - 1) == s.rows[k..] + Blank(k);
    }
  }

  /** Line breaks above the last row only move the cursor down. */
  lemma {:induction false} DescendFeeds(s: Screen, k: nat)
    requires s.Valid() && 0 < k && s.row + k < |s.rows|
    ensures Run(s, Newlines(k)) == s.(row := s.row + k, col := 0)
    decreases k
  {
    var s1 := Step(s, LF);
    assert Newlines(k)[1..] == Newlines(k - 1);
    if k > 1 {
      DescendFeeds(s1, k - 1);
    }
  }

  /**
   * Line breaks from a row with `f` free rows below it, more breaks than that: the first
   * `f` move the cursor down to the last row, the rest scroll the screen.
   */
  lemma FeedsPastBottom(s: Screen, k: nat)
    requires s.Valid() && |s.rows| - 1 - s.row < k <= |s.rows|
    ensures Run(s, Newlines(k)) ==
            Screen(s.rows[k - (|s.rows| - 1 - s.row)..] + Blank(k - (|s.rows| - 1 - s.row)), |s.rows| - 1, 0)
  {
    var f := |s.rows| - 1 - s.row;
    if f == 0 {
      ScrollFeeds(s, k);
    } else {
      FeedsThenScroll(s, f, k, s.(row := |s.rows| - 1, col := 0));
    }
  }

  /** `FeedsPastBottom` with the row count `f` below the cursor and the screen on reaching the last row named. */
  lemma FeedsThenScroll(s: Screen, f: nat, k: nat, last: Screen)
    requires s.Valid() && 0 < f < k <= |s.rows| && s.row + f == |s.rows| - 1
    requires last == Screen(s.rows, |s.rows| - 1, 0)
    ensures Run(s, Newlines(k)) == Screen(s.rows[k - f..] + Blank(k - f), |s.rows| - 1, 0)
  {
    NewlinesSplit(f, k);
    DescendFeeds(s, f);
    ScrollFeeds(last, k - f);
    RunSplit(s, Newlines(k), Newlines(f), Newlines(k - f), last, Screen(s.rows[k - f..] + Blank(k - f), |s.rows| - 1, 0));
  }

  /** Line breaks from any row: the cursor moves down `k` rows, and stays on the last row once there. */
  lemma {:induction false} FeedsRow(s: Screen, k: nat)
    requires s.Valid()
    ensures Run(s, Newlines(k)).row == if s.row + k < |s.rows| then s.row + k else |s.rows| - 1
    decreases k
  {
    if k > 0 {
      assert Newlines(k)[1..] == Newlines(k - 1);
      FeedsRow(Step(s, LF), k - 1);
    }
  }

  /** Text from any row: only its line breaks move the cursor down, and not past the last row. */
  lemma {:induction false} TextRow(s: Screen, text: string)
    requires s.Valid()
    ensures Run(s, Text(text)).row ==
            if s.row + NewlineCount(text) < |s.rows| then s.row + NewlineCount(text) else |s.rows| - 1
    decreases |text|
  {
    if |text| > 0 {
      RunText(s, text);
      TextRow(Step(s, CharToken(text[0])), text[1..]);
    }
  }

  /** IL with room for all inserted rows: the last `n` rows are pushed off the screen. */
  lemma InsertLines(s: Screen, n: nat)
    requires s.Valid() && s.row + n <= |s.rows|
    ensures Step(s, IL(n)) == Screen(s.rows[..s.row] + Blank(n) + s.rows[s.row..|s.rows| - n], s.row, 0)
  {
    var ins := s.rows[..s.row] + Blank(n) + s.rows[s.row..];
    assert ins[..|s.rows|] == s.rows[..s.row] + Blank(n) + s.rows[s.row..|s.rows| - n];
  }

  lemma AppendGlyph(s: Screen, c: char)
    requires s.Valid() && s.col == |s.rows[s.row]|
    ensures Step(s, Glyph(c)) == s.(rows := s.rows[s.row := s.rows[s.row] + [c]], col := s.col + 1)
  {
    assert Repeat(' ', 0) == "";
    assert Put(s.rows[s.row], s.col, c) == s.rows[s.row] + [c];
  }

  lemma RunText(s: Screen, line: string)
    requires s.Valid() && |line| > 0
    ensures Run(s, Text(line)) == Run(Step(s, CharToken(line[0])), Text(line[1..]))
  {
  }

  /** Single-line text written at the end of the cursor row is appended to it. */
  lemma {:induction false} WriteText(s: Screen, line: string)
    requires s.Valid() && SingleLine(line) && s.col == |s.rows[s.row]|
    ensures Run(s, Text(line)) == s.(rows := s.rows[s.row := s.rows[s.row] + line], col := s.col + |line|)
    decreases |line|
  {
    var cur := s.rows[s.row];
    if |line| == 0 {
      assert cur + line == cur;
      assert s.rows[s.row := cur] == s.rows;
    } else {
      var c := line[0];
      RunText(s, line);
      AppendGlyph(s, c);
      var s1 := s.(rows := s.rows[s.row := cur + [c]], col := s.col + 1);
      assert SingleLine(line[1..]);
      WriteText(s1, line[1..]);
      assert (cur + [c]) + line[1..] == cur + line;
      assert s1.rows[s.row := cur + line] == s.rows[s.row := cur + line];
    }
  }

  /** The text of several lines: the first line's text, a line break, the rest's text. */
  lemma TextOfLines(ls: seq<string>)
    requires |ls| > 1
    ensures Text(Join(ls)) == Text(ls[0]) + [LF] + Text(Join(ls[1..]))
  {
    var j := Join(ls[1..]);
    assert Join(ls) == ls[0] + ("\n" + j) by {
      Regroup3(ls[0], "\n", j);
    }
    TextAppend(ls[0], "\n" + j);
    TextAppend("\n", j);
    assert Text("\n") == [LF];
    Regroup3(Text(ls[0]), [LF], Text(j));
  }

  lemma SplitPair<T>(x: T, y: T, t: seq<T>, z: seq<T>)
    ensures [x, y] + t + z == [x] + ([y] + t) + z
  {
    assert [x, y] == [x] + [y];
  }

  /** One line written on a blank row from column 0, then a line break to the next row. */
  lemma WriteFirstLine(s: Screen, line: string)
    requires s.Valid() && s.col == 0 && s.row + 1 < |s.rows| && s.rows[s.row] == "" && SingleLine(line)
    ensures Run(s, Text(line) + [LF]) == Screen(s.rows[s.row := line], s.row + 1, 0)
  {
    WriteText(s, line);
    assert "" + line == line;
    RunOne(s.(rows := s.rows[s.row := line], col := |line|), LF);
    RunSplit(s, Text(line) + [LF], Text(line), [LF], s.(rows := s.rows[s.row := line], col := |line|), Screen(s.rows[s.row := line], s.row + 1, 0));
  }

  /** The rows after the first line, then the rest, are written from row `r`. */
  lemma LinesAfterFirst(rows: seq<string>, r: nat, ls: seq<string>)
    requires |ls| > 1 && r + |ls| <= |rows|
    ensures rows[r := ls[0]][..r + 1] + ls[1..] + rows[r := ls[0]][r + 1 + |ls[1..]|..] == rows[..r] + ls + rows[r + |ls|..]
  {
    assert rows[r := ls[0]][..r + 1] == rows[..r] + [ls[0]];
    assert rows[r := ls[0]][r + 1 + |ls[1..]|..] == rows[r + |ls|..];
    assert [ls[0]] + ls[1..] == ls;
  }

  /** Text written from column 0 over blank rows fills them with its lines. */
  lemma {:induction false} WriteLines(s: Screen, ls: seq<string>)
    requires s.Valid() && s.col == 0 && |ls| > 0 && s.row + |ls| <= |s.rows|
    requires forall i :: 0 <= i < |ls| ==> SingleLine(ls[i])
    requires forall i :: s.row <= i < s.row + |ls| ==> s.rows[i] == ""
    ensures Run(s, Text(Join(ls))) ==
            Screen(s.rows[..s.row] + ls + s.rows[s.row + |ls|..], s.row + |ls| - 1, |ls[|ls| - 1]|)
    decreases |ls|
  {
    var r := s.row;
    if |ls| == 1 {
      assert ls == [ls[0]];
      WriteOneLine(s, ls[0]);
    } else {
      var rows := s.rows[r := ls[0]];
      assert forall i :: r + 1 <= i < r + 1 + |ls[1..]| ==> rows[i] == "";
      WriteLines(Screen(s.rows[r := ls[0]], r + 1, 0), ls[1..]);
      WriteLinesStep(s, ls);
    }
  }

  lemma WriteOneLine(s: Screen, line: string)
    requires s.Valid() && s.col == 0 && s.rows[s.row] == "" && SingleLine(line)
    ensures Run(s, Text(Join([line]))) == Screen(s.rows[..s.row] + [line] + s.rows[s.row + 1..], s.row, |line|)
  {
    assert Join([line]) == line;
    WriteText(s, line);
    assert "" + line == line;
    assert s.rows[s.row := line] == s.rows[..s.row] + [line] + s.rows[s.row + 1..];
  }

  /** The step of `WriteLines`: the first line, a line break, then the rest as already known. */
  lemma WriteLinesStep(s: Screen, ls: seq<string>)
    requires s.Valid() && s.col == 0 && |ls| > 1 && s.row + |ls| <= |s.rows|
    requires SingleLine(ls[0]) && s.rows[s.row] == ""
    requires Run(Screen(s.rows[s.row := ls[0]], s.row + 1, 0), Text(Join(ls[1..]))) ==
             Screen(s.rows[s.row := ls[0]][..s.row + 1] + ls[1..] + s.rows[s.row := ls[0]][s.row + 1 + |ls[1..]|..],
                    s.row + 1 + |ls[1..]| - 1, |ls[1..][|ls[1..]| - 1]|)
    ensures Run(s, Text(Join(ls))) ==
            Screen(s.rows[..s.row] + ls + s.rows[s.row + |ls|..], s.row + |ls| - 1, |ls[|ls| - 1]|)
  {
    LinesAfterFirst(s.rows, s.row, ls);
    assert ls[1..][|ls[1..]| - 1] == ls[|ls| - 1];
    FirstThenRest(s, ls, Screen(s.rows[..s.row] + ls + s.rows[s.row + |ls|..], s.row + |ls| - 1, |ls[|ls| - 1]|));
  }

  /** The first line and a line break, followed by whatever the rest does. */
  lemma FirstThenRest(s: Screen, ls: seq<string>, t: Screen)
    requires s.Valid() && s.col == 0 && |ls| > 1 && s.row + 1 < |s.rows|
    requires SingleLine(ls[0]) && s.rows[s.row] == ""
    requires Run(Screen(s.rows[s.row := ls[0]], s.row + 1, 0), Text(Join(ls[1..]))) == t
    ensures Run(s, Text(Join(ls))) == t
  {
    TextOfLines(ls);
    WriteFirstLine(s, ls[0]);
    RunSplit(s, Text(Join(ls)), Text(ls[0]) + [LF], Text(Join(ls[1..])), Screen(s.rows[s.row := ls[0]], s.row + 1, 0), t);
  }
}

=== FILE: wrappers.dfy ===
/** Option and Result; a Failure models a raised exception. */
module Wrappers {

  datatype Option<+T> = None | Some(value: T)

  datatype Result<+R, +E> = Success(value: R) | Failure(error: E)
}
